=== FILE: README.md ===
# sumo — a Dafny model of its inventory, configuration and readiness logic

`sumo` is a small Ruby tool for cloud compute instances and block-storage
volumes. It launches instances, waits until they have a hostname and accept
ssh, and bootstraps Chef on them over ssh. Most of `lib/sumo.rb` calls the
provider's API or shells out to `ssh` and `scp`. This project models the
pure logic inside that glue:

- **Inventory** (`inventory.dfy`, `cache.dfy`):
  - `fetch_list` flattens reservations.
  - `volumes` maps volume rows and defaults missing attachment data to `""`.
  - `find` and `find_volume` return the first match on a stripped, downcased query.
  - `list_by_status`, `running` and `pending` filter instances by status.
  - The three volume filters select volumes by status.
  - The memoised `list` is explicit session state holding an optional snapshot.
- **Configuration** (`config.dfy`): user settings merged over `default_config`,
  Ruby truthiness and interpolation of values, and the `server` endpoint.
- **Readiness waits** (`polling.dfy`):
  - `wait_for_hostname` and `wait_for_private_ip` are a guard plus the first
    round that reports the field.
  - `wait_for_ssh` is a state machine over a finite trace of probe outcomes.
    Its state is the attempt counter; the budget is 10 attempts.
- **Remote commands** (`remote.dfy`, `bootstrap.dfy`, `resources.dfy`):
  - `ssh` joins its commands into one `&&` script and runs a trust bootstrap
    the first time it meets a host. The model also gives the exit semantics of
    the joined script.
  - `bootstrap_chef` picks its cookbook step and its transfers.
  - `parse_resources` splits the output into lines and replaces `localhost`.
- **Ruby string semantics** (`text.dfy`, `seqs.dfy`):
  - `strip`, ASCII `downcase`, `split("\n")` (trailing empty fields dropped)
    and `gsub` with a literal pattern.
  - The line-anchored regexes `/^i-/` and `/^vol-/`. In Ruby `^` matches at
    the start of every line, and the model keeps that.
  - `detect` and `select` on sequences.

The inputs are modelled as follows:

- Provider replies are datatype values passed in (`DescribeInstances`, `DescribeVolumes`).
- Each `list` call gets the provider's reply of that moment.
- Each wait gets a finite trace, one element per loop round. If the trace ends
  before the loop decides, the result is "still waiting" (`StillWaiting`, `OutOfTrace`).
- Whether a command would succeed is given as a sequence of booleans.
- The text of the local `known_hosts` file is a string parameter.

Behaviour of the code that is easy to misread:

- `wait_for_hostname` and `wait_for_private_ip` return the first non-nil
  value. An empty string counts, because only `nil` is falsy in Ruby.
- `wait_for_ssh` raises only for a `nil` hostname. An empty string passes.
- `wait_for_ssh` does not return `false` right after the tenth failed
  attempt. It returns `false` at the next successful TCP connect, with the
  counter at 10. Transient connect failures before that keep the loop going.
- The 4-second `Timeout` wraps the authenticated command and the `sleep 5`
  too. So every failed attempt ends in a rescued `Timeout::Error`, with the
  counter already raised. Its effect is the same as a plain retry.
- `server` does not need a non-empty zone. For `""`, `"".slice(0, -1)` is
  `nil`, and the endpoint is `.ec2.amazonaws.com`.

The id guard of the two waits accepts any id with a line that starts with
`i-`, not only ids that start with `i-`. `Polling.WaitForHostname` and
`Polling.WaitForPrivateIp` keep that guard as written (`Polling.GuardAsWritten`);
`Polling.WaitForField` is the same wait with the intended guard (see Findings).

## Model

| member | source | states |
|---|---|---|
| `Inventory.FetchList` | lib/sumo.rb:92-109 | an absent reservation set gives `[]`; otherwise the list is the flattening of the reservations, so it holds every instance of every reservation and nothing else |
| `Inventory.Flatten` | lib/sumo.rb:96-108 | every instance of every reservation is in the list, and nothing else is |
| `Inventory.FlattenOrder` | lib/sumo.rb:96-108 | one reservation contributes its instances in their order, and the reservations of `a + b` contribute those of `a` first and then those of `b`, so the list keeps reservation order and instance order |
| `Inventory.VolumeOf` | lib/sumo.rb:34-41 | id, size and status are copied; with no attachment both `device` and `instance_id` are `""`; with one they are the first attachment's fields, nil included |
| `Inventory.Volumes` | lib/sumo.rb:30-43 | an absent volume set gives `[]`; otherwise there is one volume per row, in row order, and each is the row mapped by `Inventory.VolumeOf` (id, size and status copied, attachment fields defaulting to `""`) |
| `Inventory.Find` | lib/sumo.rb:111-119 | a nil query gives nil; otherwise the result is the first instance in list order matching the stripped, downcased query by hostname, id, or id without a line-leading `i-`; nil exactly when none matches |
| `Inventory.IdMatchOnOneLine` | lib/sumo.rb:116-117 | for a one-line stored id, the two id tests hold exactly when the id is the query or `"i-"` + query |
| `Inventory.FindIgnoresPaddingAndCase` | lib/sumo.rb:113 | the result of `find` does not change when the query is normalised first |
| `Inventory.FindSingle` | lib/sumo.rb:114-118 | a one-instance list yields its instance exactly when that instance matches the normalised query, and nil otherwise |
| `Inventory.FindExample` | lib/sumo.rb:111-119 | `"I-ABC123 "` and `"abc123"` both find the instance `i-abc123` |
| `Inventory.FindVolume` | lib/sumo.rb:121-128 | a nil query gives nil; otherwise the result is the first volume whose id is the normalised query, or whose id, after deleting a line-leading `vol-` from the stored id, is the query; nil exactly when none matches |
| `Inventory.VolumeIdMatchOnOneLine` | lib/sumo.rb:125-126 | for a one-line volume id, a match means the id is the query or `"vol-"` + query |
| `Inventory.ListByStatus` | lib/sumo.rb:138-140 | the result is an order-preserving subsequence of the list; each instance with the given status occurs as often as in the list, and no other instance occurs |
| `Inventory.Running` | lib/sumo.rb:130-132 | `list_by_status("running")`: an order-preserving subsequence of the list in which each instance with status `running` occurs as often as in the list, and no other instance occurs |
| `Inventory.Pending` | lib/sumo.rb:134-136 | `list_by_status("pending")`: an order-preserving subsequence of the list in which each instance with status `pending` occurs as often as in the list, and no other instance occurs |
| `Inventory.AvailableVolumes` | lib/sumo.rb:45-47 | an order-preserving subsequence of the volumes; each volume with status `available` occurs as often as in the input, no other volume occurs |
| `Inventory.AttachedVolumes` | lib/sumo.rb:49-51 | an order-preserving subsequence of the volumes; each volume with status `in-use` occurs as often as in the input, no other volume occurs |
| `Inventory.NondestroyedVolumes` | lib/sumo.rb:53-55 | an order-preserving subsequence of the volumes; each volume whose status is not `deleting` occurs as often as in the input, no other volume occurs |
| `Inventory.AvailableAttachedDisjoint` | lib/sumo.rb:45-51 | no volume is both available and attached |
| `Inventory.FiltersWithinNondestroyed` | lib/sumo.rb:45-55 | the available and attached volumes are the non-destroyed ones filtered again, so each is an order-preserving subsequence of `nondestroyed_volumes` |
| `Cache.List` | lib/sumo.rb:26-28 | with a snapshot, `list` returns it and keeps the session; without one, it fetches and stores what it returns |
| `Cache.ListIsMemoised` | lib/sumo.rb:26-28 | after the first call, any number of later calls return the first snapshot, whatever the provider reports by then |
| `Config.Merge` | lib/sumo.rb:316 | the merged keys are the union; a user key keeps the user's value; a default-only key keeps the default |
| `Config.Load` | lib/sumo.rb:315-330 | `config` has the default keys plus the user's keys; the user's values win; the other defaults stay |
| `Config.MergeIdempotent` | lib/sumo.rb:316 | merging the same user settings twice equals merging them once |
| `Config.LoadEmpty` | lib/sumo.rb:323-330 | with no user settings, the configuration is `default_config` |
| `Config.DefaultSettings` | lib/sumo.rb:323-330 | with no user settings the keys are `user`, `ami`, `availability_zone` and `instance_size`, with the values `ubuntu`, `ami-1234de7b`, `us-east-1d` and `t1.micro` |
| `Config.Truthy` | lib/sumo.rb:205 | a setting is truthy only when present; a nil setting is falsy; any string, `""` included, is truthy; a boolean is truthy exactly when it is `true` |
| `Config.Interp` | lib/sumo.rb:240 | interpolating a string setting gives the string; a missing or nil setting gives `""`; `true` gives `"true"` and `false` gives `"false"` |
| `Config.EndpointFor` | lib/sumo.rb:378-379 | the endpoint ends in `.ec2.amazonaws.com`; before the suffix comes the zone minus its last character, so adding that character back gives the zone; an empty zone gives only the suffix |
| `Config.Server` | lib/sumo.rb:376-380 | raises when the zone is not a string; otherwise returns the zone's endpoint |
| `Config.ServerForDefaults` | lib/sumo.rb:327 | the default zone `us-east-1d` gives `us-east-1.ec2.amazonaws.com` |
| `Polling.GuardAsWritten` | lib/sumo.rb:149 | nil is rejected; an id passes exactly when `i-` occurs at the start of one of its lines |
| `Polling.IsInstanceId` | lib/sumo.rb:149 | an id is accepted exactly when it starts with `i-`, and the guard as written accepts every such id too |
| `Polling.GuardAcceptsSecondLine` | lib/sumo.rb:149 | the guard as written accepts `"x\ni-1"`, which does not start with `i-` |
| `Polling.GuardCorrected` | lib/sumo.rb:149 | the intended guard accepts no id that the written one rejects; on one-line ids the two guards agree |
| `Polling.InstanceInfo` | lib/sumo.rb:142-146 | the first instance with exactly that id in the freshly fetched list; nil when no instance has it |
| `Polling.ReportedMeaning` | lib/sumo.rb:151-152 | a round reports nothing when no instance in it has the id; when some instance has it, the round reports the field of the first such instance, nil included |
| `Polling.FirstReport` | lib/sumo.rb:150-157 | over the per-round reports, the loop returns the first reported value; it keeps waiting exactly when no round reports one |
| `Polling.PollUntil` | lib/sumo.rb:150-157 | returns the value of the first round in which the instance reports the field; still waiting exactly when no round reports it |
| `Polling.WaitForField` | lib/sumo.rb:148-170 | ArgumentError exactly when the id is nil or does not start with `i-`; otherwise the first reported value, or still waiting |
| `Polling.WaitForHostname` | lib/sumo.rb:148-158 | ArgumentError exactly when the id is nil or no line of it starts with `i-`; still waiting exactly when no round reports a hostname; a returned hostname is the one reported by the first round that reports one |
| `Polling.WaitForPrivateIp` | lib/sumo.rb:160-170 | ArgumentError exactly when the id is nil or no line of it starts with `i-`; still waiting exactly when no round reports an address; a returned address is the one reported by the first round that reports one |
| `Polling.WaitsAgreeOnOneLineIds` | lib/sumo.rb:149 | on every id that starts with `i-`, and on every one-line id, the two waits as written behave exactly like the wait with the intended guard |
| `Polling.SecondLineIdWaitsForever` | lib/sumo.rb:148-158 | with the id `"x\ni-1"`, which no instance carries, both waits as written are still waiting after every trace, while the corrected wait raises ArgumentError |
| `Polling.WaitStopsAtFirstReport` | lib/sumo.rb:152-154 | rounds after the first one that reports the field make no difference |
| `Polling.SshLoop` | lib/sumo.rb:174-195 | the counter never drops and never exceeds 10; `false` only with the counter at 10; `true` only after raising the counter; only unrescued errors propagate |
| `Polling.SshLoopSpec` | lib/sumo.rb:174-195 | every round before the deciding one was a transient failure or a failed command. The deciding round gives `true` on a successful command with the counter below 10, `false` on any connect at 10, and a raise on an unrescued error. The counter equals the connects made plus one on `true` |
| `Polling.TransientsIgnored` | lib/sumo.rb:193 | removing transient connect failures from the trace changes neither the outcome nor the final counter |
| `Polling.GivesUpAfterBudget` | lib/sumo.rb:179-186 | after the budget's attempts have all failed, the next successful connect returns `false` whatever its command would do |
| `Polling.WaitForSsh` | lib/sumo.rb:172-196 | ArgumentError exactly for a nil hostname. Otherwise the loop runs from a zero counter with the behaviour stated for `Polling.SshLoopSpec`: earlier rounds were transient failures or failed commands, the deciding round gives `true`, `false` or a raise as described there, and the counter equals the connects made plus one on `true`. A raise from the loop carries the unrescued exception, never a command failure. The counter stays within 10 |
| `Remote.Script` | lib/sumo.rb:241 | no commands give the empty script; otherwise the script starts with the first command and ends with the last |
| `Remote.ScriptAppend` | lib/sumo.rb:241 | the script of two batches is their two scripts joined by `" && "` |
| `Remote.LogFile` | lib/sumo.rb:240 | the configured log file, interpolated, when it is truthy (a string gives itself, `true` gives `"true"`), else `~/.sumo/ssh.log` |
| `Remote.SshActions` | lib/sumo.rb:230-242 | a host name that occurs in `known_hosts` gives only the session. Otherwise the actions are these and no others, in this order: the key scan, the deploy key upload when `deploy_key` is truthy, the `known_hosts` upload when `known_hosts` is truthy, and the session. The last action is always the session with the joined script |
| `Remote.RunChain` | lib/sumo.rb:241 | the joined script succeeds exactly when every command does; otherwise it stops right after the first failing command |
| `Remote.SshResult` | lib/sumo.rb:243-245 | `ssh` succeeds exactly when every command does; a failure raises with the log file location |
| `Remote.ChainStopsAtFailure` | lib/sumo.rb:241 | when command 2 of 3 fails, command 3 is never started |
| `Bootstrap.CookbookCommand` | lib/sumo.rb:205 | clone-or-pull of `cookbooks_url` when that is truthy, else `echo done` |
| `Bootstrap.BootstrapChef` | lib/sumo.rb:198-215 | the first call runs the prerequisites and then the cookbook command. `cookbooks_dir` is copied exactly when `cookbooks_url` is unset and `cookbooks_dir` is set. `chef-validation` leads to an upload and then a move, and nothing touches `validation.pem` without it |
| `Bootstrap.LocalCookbooksCopied` | lib/sumo.rb:205-210 | with a local directory and no repository, the calls are the prerequisites with `echo done`, then the directory copy |
| `Bootstrap.NothingToCopy` | lib/sumo.rb:205-214 | with none of the three keys set, the only call runs the prerequisites and `echo done` |
| `Resources.ParseResources` | lib/sumo.rb:301-305 | one entry per line of `split("\n")`, and each entry is its line with every `localhost` replaced by the hostname; no entry holds a newline if the hostname has none |
| `Resources.LocalhostReplaced` | lib/sumo.rb:303 | in a line whose first `localhost` follows `before`, the entry keeps `before`, then has the hostname, then the rest of the line with its own occurrences replaced |
| `Resources.ParseExample` | lib/sumo.rb:301-305 | the output `"localhost:80"` on host `web1` gives `["web1:80"]` |
| `Resources.OtherLinesUnchanged` | lib/sumo.rb:303 | a line that never mentions `localhost` is returned unchanged |
| `Resources.ParseOnLocalhost` | lib/sumo.rb:301-305 | with the hostname `localhost`, the result is just the line split |
| `Text.Strip` | lib/sumo.rb:113 | the result is `s` with all-whitespace padding removed at both ends, and it neither starts nor ends with whitespace |
| `Text.Downcase` | lib/sumo.rb:113 | same length; each character is lowered on its own; no upper-case letter remains |
| `Text.Normalize` | lib/sumo.rb:113 | the query stripped and then downcased; no longer than the query, with no leading or trailing whitespace and no upper-case letter |
| `Text.NormalizeIdempotent` | lib/sumo.rb:113 | normalising twice equals normalising once |
| `Text.SplitLines` | lib/sumo.rb:302 | no line holds a newline, and the last line is never empty |
| `Text.SplitLinesRoundTrip` | lib/sumo.rb:302 | joining the lines with newlines gives back the input, apart from trailing newlines |
| `Text.FieldsJoin` | lib/sumo.rb:302 | splitting on a character after joining fields free of it with that character gives back the fields, empty ones included |
| `Text.SplitLinesOfJoin` | lib/sumo.rb:302 | `split("\n")` after joining newline-free lines whose last one is non-empty gives back the lines |
| `Text.ReplaceAll` | lib/sumo.rb:303 | input that starts with the pattern gives output that starts with the replacement; otherwise the first character is kept |
| `Text.ReplaceAllStep` | lib/sumo.rb:303 | when no occurrence starts inside `a`, `a + pat + b` becomes `a`, then the replacement, then `b` with its own occurrences replaced (leftmost, non-overlapping) |
| `Text.MatchesAtLineStart` | lib/sumo.rb:149 | true exactly when the pattern occurs at position 0 or right after a newline |
| `Text.DeleteAtLineStarts` | lib/sumo.rb:117 | never longer than the input; unchanged when no line starts with the prefix; when the input starts with the prefix, the result is at least the prefix's length shorter |
| `Text.DeleteAcrossNewline` | lib/sumo.rb:117 | for a prefix without newlines, deleting from `a + "\n" + b`, where `a` holds no newline, handles `a` on its own, keeps the newline, and starts `b` as a fresh line |
| `Text.DeletePerLine` | lib/sumo.rb:117 | the line-anchored delete works line by line: on `a + "\n" + b` it is the delete on the first line, the newline, then the delete on the rest; with `Text.SingleLineDelete` this fixes the result on every input when the prefix holds no newline |
| `Text.SingleLineDelete` | lib/sumo.rb:117 | on one line, the line-anchored `gsub` removes at most one leading copy of the prefix |

## Findings

| source | as written | input that shows it | evidently intended | confidence | as-written member | corrected member |
|---|---|---|---|---|---|---|
| lib/sumo.rb:149 (and 161) | `instance_id.match(/^i-/)`: `^` matches at every line start, so any line may begin with `i-` | `"x\ni-1"` passes the guard. No instance has that id, so the wait loops forever instead of raising ArgumentError | only ids that begin with `i-` (`\A` anchor) | medium; not executed | `Polling.GuardAsWritten`, used by `Polling.WaitForHostname` and `Polling.WaitForPrivateIp`; shown by `Polling.GuardAcceptsSecondLine` and `Polling.SecondLineIdWaitsForever` | `Polling.IsInstanceId`, related by `Polling.GuardCorrected`; `Polling.WaitForField` uses it, and `Polling.WaitsAgreeOnOneLineIds` shows it agrees with the waits as written on one-line ids |

## Left out

- Provider calls are left out: `launch`, `create_keypair`, `create_security_group`,
  `open_firewall`, `attach`, `detach`, `create_volume`, `destroy_volume`,
  `terminate`, `console_output` and `ec2`. They are foreign API calls. Their replies
  enter the model only as the `DescribeInstances` and `DescribeVolumes` values.
- `format_volume` and `setup_role` are left out. `format_volume` splices the
  device and the mount point into its commands (lib/sumo.rb:81-82);
  `setup_role` sends fixed `chef-solo` commands through `ssh` and adds the role
  with a local `knife` call. Neither holds decision logic of its own.
- Process and file I/O are left out: `scp`, `new_ssh`, `fetch_resources`,
  `read_config` (YAML parsing), `set`, `sumo_dir` and `keypair_file`. The
  keypair path in the ssh command line is omitted from `Remote.Action`.
- The `resources` per-host memo is left out; it only caches an I/O result.
- `sleep`, `Timeout::timeout` and wall-clock time are not modelled. The
  unbounded loops become finite traces, and a trace that runs out means
  "still waiting".
- Remote.SshActions: does not model how the key scan changes `known_hosts`,
  so later `ssh` calls to the same host are not connected to earlier ones.
- Bootstrap.BootstrapChef: each step is one `ssh` or `scp` call. The trust
  bootstrap inside each `ssh` call is `Remote.SshActions`, and the two are not
  composed. A failing `ssh` or `scp` raises (lib/sumo.rb:244, 251) and stops
  the remaining steps; the result lists the calls of a run in which every call
  succeeds, and does not model where a failing run stops.
- Remote.SshActions: a failing upload of the deploy key or of `known_hosts`
  raises inside `scp` (lib/sumo.rb:251) and stops `ssh` before the session;
  the result lists the actions of a run in which every upload succeeds. The
  key scan's own exit status is not checked by the code.
- Polling.WaitForField: uses the corrected guard `Polling.IsInstanceId` (the id
  starts with `i-`), while lib/sumo.rb:149 and 161 use the line-anchored
  `match(/^i-/)`. The entry points `Polling.WaitForHostname` and
  `Polling.WaitForPrivateIp` keep the guard as written.
- Inventory.FetchList: a reservation set or instances set without `item`
  raises in Ruby (lib/sumo.rb:97-98); the model's reservation and instance
  lists are always present, so that failure is not modelled.
- Inventory.VolumeOf: an attachment set without `item` is treated like a
  missing attachment set (both are rescued to `""`). A volume set without
  `item`, which raises in Ruby, is not modelled.
- Text.Downcase: only ASCII letters are lowered. Newer Rubies also lower
  non-ASCII letters.
- Text.Strip: NUL characters are not treated as whitespace.
- Text.ReplaceAll: backslash sequences in the replacement string (`\1`, `\&`)
  are not interpreted. Hostnames do not contain them.
- Config.Value: YAML numbers and other scalars are represented by their text
  as `Str`.
- Polling.Probe: exceptions outside the rescue list (`Errno::ETIMEDOUT`,
  `Errno::ECONNRESET`, `Errno::ENETUNREACH`, ...) are one `Fatal` outcome,
  and their class is not kept.

=== FILE: bootstrap.dfy ===
/**
 * `bootstrap_chef`: the fixed prerequisite commands, the cookbook step chosen
 * from `cookbooks_url`, and the file transfers chosen from `cookbooks_dir`
 * and `chef-validation`. Each `ssh` or `scp` the source issues is one step.
 */
module Bootstrap {
  import opened Config

  /** One call the bootstrap makes on the host: `ssh` with a command list, or
      `scp` of a local path to a remote one. */
  datatype Step = Commands(cmds: seq<string>) | Transfer(local: string, remote: string)

  /** The prerequisite commands, each guarded by an existence test where
      re-running would matter. */
  const Prerequisites: seq<string> := [
    "sudo apt-get update",
    "sudo apt-get autoremove -y",
    "if [ ! -f /usr/lib/ruby/1.8/net/https.rb ]; then sudo apt-get install -y xfsprogs xfsdump xfslibs-dev ruby ruby-dev rubygems libopenssl-ruby1.8 git-core; fi",
    "if [ ! -d /etc/chef ]; then sudo mkdir /etc/chef; fi",
    "if [ ! -d /var/lib/gems/1.8/gems/chef-* ]; then sudo gem install chef ohai --no-rdoc --no-ri; fi"
  ]

  const Placeholder := "echo done"

  const MoveValidation := "sudo mv validation.pem /etc/chef/"

  /** Pull the cookbooks when a checkout exists, clone them otherwise. */
  function CloneOrPull(url: string): string {
    "if [ -d chef-cookbooks ]; then cd chef-cookbooks; git pull; else git clone " + url + " chef-cookbooks; fi"
  }

  /** The last command of the first batch. */
  function CookbookCommand(cfg: Settings): (c: string)
    ensures Truthy(cfg, "cookbooks_url") ==> c == CloneOrPull(Interp(cfg, "cookbooks_url"))
    ensures !Truthy(cfg, "cookbooks_url") ==> c == Placeholder
  {
    if Truthy(cfg, "cookbooks_url") then CloneOrPull(Interp(cfg, "cookbooks_url")) else Placeholder
  }

  /** The local cookbooks are copied only when there is no repository to clone. */
  predicate CopiesCookbooks(cfg: Settings) {
    !Truthy(cfg, "cookbooks_url") && Truthy(cfg, "cookbooks_dir")
  }

  /** `bootstrap_chef(hostname)`: the calls it makes on the host, in order. */
  function BootstrapChef(cfg: Settings): (steps: seq<Step>)
    ensures |steps| == 1 + (if CopiesCookbooks(cfg) then 1 else 0) + (if Truthy(cfg, "chef-validation") then 2 else 0)
    ensures steps[0] == Commands(Prerequisites + [CookbookCommand(cfg)])
    ensures Transfer(Interp(cfg, "cookbooks_dir"), "chef-cookbooks") in steps <==> CopiesCookbooks(cfg)
    ensures CopiesCookbooks(cfg) ==> steps[1] == Transfer(Interp(cfg, "cookbooks_dir"), "chef-cookbooks")
    ensures Truthy(cfg, "chef-validation") ==>
              steps[|steps| - 2] == Transfer(Interp(cfg, "chef-validation"), "validation.pem")
              && steps[|steps| - 1] == Commands([MoveValidation])
    ensures !Truthy(cfg, "chef-validation") ==>
              forall i :: 0 <= i < |steps| ==> steps[i] != Commands([MoveValidation])
                                               && !(steps[i].Transfer? && steps[i].remote == "validation.pem")
  {
    [Commands(Prerequisites + [CookbookCommand(cfg)])]
    + (if CopiesCookbooks(cfg) then [Transfer(Interp(cfg, "cookbooks_dir"), "chef-cookbooks")] else [])
    + (if Truthy(cfg, "chef-validation")
       then [Transfer(Interp(cfg, "chef-validation"), "validation.pem"), Commands([MoveValidation])]
       else [])
  }

  /** With a local cookbooks directory and no repository, the directory is
      copied and the cookbook command is the placeholder. */
  lemma LocalCookbooksCopied(cfg: Settings, dir: string)
    requires "cookbooks_url" !in cfg
    requires "chef-validation" !in cfg
    requires "cookbooks_dir" in cfg && cfg["cookbooks_dir"] == Str(dir)
    ensures BootstrapChef(cfg) == [Commands(Prerequisites + [Placeholder]), Transfer(dir, "chef-cookbooks")]
  {
  }

  /** With neither a repository nor a local directory nor a validation key,
      only the prerequisites and the placeholder run. */
  lemma NothingToCopy(cfg: Settings)
    requires !Truthy(cfg, "cookbooks_url") && !Truthy(cfg, "cookbooks_dir") && !Truthy(cfg, "chef-validation")
    ensures BootstrapChef(cfg) == [Commands(Prerequisites + [Placeholder])]
  {
  }
}

=== FILE: cache.dfy ===
/**
 * The memoised instance list: `list` is `@list ||= fetch_list`. The memo is
 * made explicit as session state holding an optional snapshot; the provider's
 * current reply is an input. Nothing ever clears the snapshot.
 */
module Cache {
  import opened Common
  import opened Inventory

  datatype Session = Session(snapshot: Option<seq<Instance>>)

  datatype Listed = Listed(instances: seq<Instance>, session: Session)

  /** `list`: the snapshot if there is one, otherwise the provider's current
      list, which becomes the snapshot. */
  function List(s: Session, provider: DescribeInstances): (r: Listed)
    ensures r.session.snapshot == Some(r.instances)
    ensures s.snapshot.Some? ==> r.instances == s.snapshot.value && r.session == s
    ensures s.snapshot.None? ==> r.instances == FetchList(provider)
  {
    match s.snapshot
    case Some(cached) => Listed(cached, s)
    case None =>
      var fetched := FetchList(provider);
      Listed(fetched, Session(Some(fetched)))
  }

  /** After the first `list`, later calls return the same instances whatever
      the provider reports by then: the snapshot may be stale. */
  lemma {:induction false} ListIsMemoised(s: Session, first: DescribeInstances, later: seq<DescribeInstances>)
    ensures ListAll(List(s, first).session, later) == List(s, first).instances
    decreases |later|
  {
    if |later| > 0 {
      ListIsMemoised(List(s, first).session, later[0], later[1..]);
    }
  }

  /** The instances returned by the last of a run of `list` calls (or the
      snapshot, when there are none). */
  function ListAll(s: Session, calls: seq<DescribeInstances>): seq<Instance>
    requires s.snapshot.Some?
    decreases |calls|
  {
    if |calls| == 0 then s.snapshot.value
    else ListAll(List(s, calls[0]).session, calls[1..])
  }
}

=== FILE: common.dfy ===
/** Shared wrappers: Ruby's `nil`-or-value and raise-or-return, as datatypes. */
module Common {

  /** A value that Ruby may leave as `nil`. */
  datatype Option<+T> = None | Some(value: T)

  /** The exceptions the modelled operations can raise. */
  datatype Error =
    | ArgumentError                    // `raise ArgumentError`
    | NoMethodError                    // a String method called on nil or on a non-string
    | CommandFailed(logfile: string)   // a remote shell session exited non-zero
    | Unrescued                        // a probe error outside the rescue list of wait_for_ssh

  /** A call that either returns a value or raises. */
  datatype Result<+T> = Ok(value: T) | Failed(error: Error)
}

=== FILE: config.dfy ===
/**
 * The configuration hash: user settings merged over the built-in defaults,
 * Ruby truthiness and string interpolation of its values, and the provider
 * endpoint `server` derives from the availability zone.
 */
module Config {
  import opened Common

  /** A configuration value as the YAML file yields it: a string, a boolean or nil. */
  datatype Value = Str(s: string) | Bool(b: bool) | Nil

  type Settings = map<string, Value>

  /** `default_config`. */
  const Defaults: Settings := map[
    "user" := Str("ubuntu"),
    "ami" := Str("ami-1234de7b"),
    "availability_zone" := Str("us-east-1d"),
    "instance_size" := Str("t1.micro")
  ]

  /** Ruby `Hash#merge`: every key of either map, the second map's value winning. */
  function Merge(base: Settings, over: Settings): (r: Settings)
    ensures r.Keys == base.Keys + over.Keys
    ensures forall k :: k in over ==> r[k] == over[k]
    ensures forall k :: k in base && k !in over ==> r[k] == base[k]
  {
    base + over
  }

  /** `config`: the user's settings over `default_config`. */
  function Load(user: Settings): (r: Settings)
    ensures r.Keys == Defaults.Keys + user.Keys
    ensures forall k :: k in user ==> r[k] == user[k]
    ensures forall k :: k in Defaults && k !in user ==> r[k] == Defaults[k]
  {
    Merge(Defaults, user)
  }

  /** Merging the same overrides twice is merging them once. */
  lemma MergeIdempotent(base: Settings, over: Settings)
    ensures Merge(Merge(base, over), over) == Merge(base, over)
  {
    var once := Merge(base, over);
    var twice := Merge(once, over);
    assert twice.Keys == once.Keys;
    forall k | k in twice ensures twice[k] == once[k] {
    }
  }

  /** With no user settings, the configuration is the defaults. */
  lemma LoadEmpty()
    ensures Load(map[]) == Defaults
  {
    var r := Load(map[]);
    assert r.Keys == Defaults.Keys;
    forall k | k in r ensures r[k] == Defaults[k] {
    }
  }

  /** Without user settings, each default is in place. */
  lemma DefaultSettings()
    ensures Load(map[]).Keys == {"user", "ami", "availability_zone", "instance_size"}
    ensures Load(map[])["user"] == Str("ubuntu")
    ensures Load(map[])["ami"] == Str("ami-1234de7b")
    ensures Load(map[])["availability_zone"] == Str("us-east-1d")
    ensures Load(map[])["instance_size"] == Str("t1.micro")
  {
    LoadEmpty();
  }

  /** Ruby truthiness of `config[k]`: present and neither nil nor false. Every
      string is truthy, the empty one included. */
  function Truthy(cfg: Settings, k: string): (r: bool)
    ensures r ==> k in cfg
    ensures k in cfg && cfg[k].Str? ==> r
    ensures k in cfg && cfg[k].Bool? ==> (r <==> cfg[k].b)
    ensures k in cfg && cfg[k] == Nil ==> !r
  {
    k in cfg && cfg[k] != Nil && cfg[k] != Bool(false)
  }

  /** `"#{config[k]}"`: a missing key and nil both interpolate as "". */
  function Interp(cfg: Settings, k: string): (r: string)
    ensures k in cfg && cfg[k].Str? ==> r == cfg[k].s
    ensures !(k in cfg) || cfg[k] == Nil ==> r == ""
    ensures k in cfg && cfg[k].Bool? ==> (r == "true" <==> cfg[k].b)
    ensures k in cfg && cfg[k] == Bool(false) ==> r == "false"
  {
    if k !in cfg then ""
    else match cfg[k]
      case Str(s) => s
      case Bool(b) => if b then "true" else "false"
      case Nil => ""
  }

  const EndpointSuffix := ".ec2.amazonaws.com"

  /** The endpoint for a zone: the zone without its last character, then the
      suffix. An empty zone gives just the suffix (Ruby's `"".slice(0, -1)`
      is nil, which interpolates as ""). */
  function EndpointFor(zone: string): (r: string)
    ensures |zone| > 0 ==> |r| == |zone| - 1 + |EndpointSuffix|
    ensures |zone| == 0 ==> r == EndpointSuffix
    ensures r[|r| - |EndpointSuffix|..] == EndpointSuffix
    ensures |zone| > 0 ==> r[..|r| - |EndpointSuffix|] + [zone[|zone| - 1]] == zone
  {
    var host := if |zone| == 0 then "" else zone[..|zone| - 1];
    host + EndpointSuffix
  }

  /** `server`: the endpoint for the configured zone; a zone that is missing,
      nil or not a string raises (the String method is called on it). */
  function Server(cfg: Settings): (r: Result<string>)
    ensures r.Failed? <==> !("availability_zone" in cfg && cfg["availability_zone"].Str?)
    ensures r.Failed? ==> r.error == NoMethodError
    ensures r.Ok? ==> r.value == EndpointFor(cfg["availability_zone"].s)
  {
    if "availability_zone" in cfg && cfg["availability_zone"].Str? then
      Ok(EndpointFor(cfg["availability_zone"].s))
    else Failed(NoMethodError)
  }

  lemma ServerExample()
    ensures EndpointFor("us-east-1d") == "us-east-1.ec2.amazonaws.com"
  {
  }

  /** With no user settings the endpoint is that of the default zone. */
  lemma ServerForDefaults()
    ensures Server(Load(map[])) == Ok("us-east-1.ec2.amazonaws.com")
  {
    LoadEmpty();
    ServerExample();
  }
}

=== FILE: inventory.dfy ===
/**
 * The instance and volume inventory: the records built from the provider's
 * describe results (`fetch_list`, `volumes`), the lookups `find` and
 * `find_volume`, and the status filters. The provider's replies are inputs;
 * each function works on the snapshot it is given.
 */
module Inventory {
  import opened Common
  import opened Text
  import opened Seqs

  /** One instance row of `fetch_list`. Ruby leaves the optional fields nil
      until the provider assigns them. */
  datatype Instance = Instance(
    instanceId: string,
    status: string,
    hostname: Option<string>,
    localDns: Option<string>,
    privateIp: Option<string>)

  datatype Reservation = Reservation(instances: seq<Instance>)

  /** The provider's describe-instances reply: the reservation set may be absent. */
  datatype DescribeInstances = DescribeInstances(reservationSet: Option<seq<Reservation>>)

  /** First attachment record of a volume row; either field may be missing. */
  datatype Attachment = Attachment(device: Option<string>, instanceId: Option<string>)

  /** One volume row as the provider reports it. `attachments` is None when the
      row has no attachment set (or the set has no items). */
  datatype VolumeRow = VolumeRow(
    volumeId: string,
    size: string,
    status: string,
    attachments: Option<seq<Attachment>>)

  datatype DescribeVolumes = DescribeVolumes(volumeSet: Option<seq<VolumeRow>>)

  /** One volume row of `volumes`. */
  datatype Volume = Volume(
    volumeId: string,
    size: string,
    status: string,
    device: Option<string>,
    instanceId: Option<string>)

  /** The instances of all reservations, reservation by reservation, in order. */
  function Flatten(rs: seq<Reservation>): (r: seq<Instance>)
    ensures forall k, x :: 0 <= k < |rs| && x in rs[k].instances ==> x in r
    ensures forall x :: x in r ==> exists k :: 0 <= k < |rs| && x in rs[k].instances
    decreases |rs|
  {
    if |rs| == 0 then []
    else
      var rest := Flatten(rs[1..]);
      assert forall k :: 1 <= k < |rs| ==> rs[k] == rs[1..][k - 1];
      rs[0].instances + rest
  }

  /** Flattening keeps reservation order: a single reservation gives its own
      instances, and two runs of reservations give their lists one after the other. */
  lemma {:induction false} FlattenOrder(a: seq<Reservation>, b: seq<Reservation>, x: Reservation)
    ensures Flatten([x]) == x.instances
    ensures Flatten(a + b) == Flatten(a) + Flatten(b)
    decreases |a|
  {
    assert [x][1..] == [];
    if |a| == 0 {
      assert a + b == b;
    } else {
      assert (a + b)[1..] == a[1..] + b;
      FlattenOrder(a[1..], b, x);
    }
  }

  /** `fetch_list`: every instance of every reservation; an absent reservation
      set gives the empty list, not an error. */
  function FetchList(d: DescribeInstances): (r: seq<Instance>)
    ensures d.reservationSet.None? ==> r == []
    ensures d.reservationSet.Some? ==> r == Flatten(d.reservationSet.value)
  {
    match d.reservationSet
    case None => []
    case Some(rs) => Flatten(rs)
  }

  /** The row mapper of `volumes`: a missing attachment yields "" for both the
      device and the instance id (the `rescue ""`); a present attachment
      passes its fields through, nil included. */
  function VolumeOf(row: VolumeRow): (v: Volume)
    ensures v.volumeId == row.volumeId && v.size == row.size && v.status == row.status
    ensures (row.attachments.None? || row.attachments.value == []) ==>
              v.device == Some("") && v.instanceId == Some("")
    ensures (row.attachments.Some? && row.attachments.value != []) ==>
              v.device == row.attachments.value[0].device
              && v.instanceId == row.attachments.value[0].instanceId
  {
    var first: Option<Attachment> :=
      match row.attachments
      case Some(items) => if |items| > 0 then Some(items[0]) else None
      case None => None;
    match first
    case None => Volume(row.volumeId, row.size, row.status, Some(""), Some(""))
    case Some(a) => Volume(row.volumeId, row.size, row.status, a.device, a.instanceId)
  }

  /** `volumes`: one volume per row, in row order; an absent volume set gives
      the empty list. */
  function Volumes(d: DescribeVolumes): (r: seq<Volume>)
    ensures d.volumeSet.None? ==> r == []
    ensures d.volumeSet.Some? ==> |r| == |d.volumeSet.value|
    ensures d.volumeSet.Some? ==> forall i :: 0 <= i < |r| ==>
              r[i].volumeId == d.volumeSet.value[i].volumeId && r[i].status == d.volumeSet.value[i].status
    ensures d.volumeSet.Some? ==> forall i :: 0 <= i < |r| ==> r[i] == VolumeOf(d.volumeSet.value[i])
  {
    match d.volumeSet
    case None => []
    case Some(rows) => seq(|rows|, i requires 0 <= i < |rows| => VolumeOf(rows[i]))
  }

  // ---------------------------------------------------------------- find

  /** The three tests of `find` against an already normalised query. Stored
      values are compared as they are: `gsub(/^i-/, '')` strips `i-` at the
      start of every line of the stored id. */
  predicate InstanceMatches(inst: Instance, q: string) {
    inst.hostname == Some(q)
    || inst.instanceId == q
    || DeleteAtLineStarts(inst.instanceId, "i-") == q
  }

  /** `list[k]` is the first instance in `list` matching `q`. */
  predicate FirstInstanceMatch(list: seq<Instance>, k: int, q: string) {
    0 <= k < |list| && InstanceMatches(list[k], q)
    && forall j :: 0 <= j < k ==> !InstanceMatches(list[j], q)
  }

  /** `find(id_or_hostname)`: nil for a nil query; otherwise the first
      instance, in list order, that matches the stripped and downcased query. */
  function Find(list: seq<Instance>, query: Option<string>): (r: Option<Instance>)
    ensures query.None? ==> r.None?
    ensures query.Some? ==>
      (r.None? <==> forall j :: 0 <= j < |list| ==> !InstanceMatches(list[j], Normalize(query.value)))
    ensures r.Some? ==> query.Some?
    ensures r.Some? ==> exists k :: FirstInstanceMatch(list, k, Normalize(query.value)) && list[k] == r.value
  {
    match query
    case None => None
    case Some(raw) =>
      var q := Normalize(raw);
      Detect(list, inst => InstanceMatches(inst, q))
  }

  /** For an id on one line, matching by id means the id is the query itself
      or the query with `i-` in front. */
  lemma IdMatchOnOneLine(id: string, q: string)
    requires '\n' !in id
    ensures (id == q || DeleteAtLineStarts(id, "i-") == q) <==> (id == q || id == "i-" + q)
  {
    SingleLineDelete(id, "i-");
    if StartsWith(id, "i-") {
      assert id == "i-" + id[2..];
    }
    if id == "i-" + q {
      assert StartsWith(id, "i-");
      assert id[2..] == q;
    }
  }

  /** Padding and case in the query do not change what `find` returns. */
  lemma FindIgnoresPaddingAndCase(list: seq<Instance>, q: string)
    ensures Find(list, Some(q)) == Find(list, Some(Normalize(q)))
  {
    NormalizeIdempotent(q);
  }

  lemma StripExample()
    ensures Strip("I-ABC123 ") == "I-ABC123"
  {
    var q := "I-ABC123 ";
    assert LeadingSpaces(q) == 0;
    assert q[0..] == q;
    assert q[..|q| - 1] == "I-ABC123";
    assert TrailingSpaces("I-ABC123") == 0;
    assert TrailingSpaces(q) == 1;
  }

  lemma DowncaseExample()
    ensures Downcase("I-ABC123") == "i-abc123"
  {
    var d := Downcase("I-ABC123");
    assert d[0] == 'i' && d[1] == '-' && d[2] == 'a' && d[3] == 'b';
    assert d[4] == 'c' && d[5] == '1' && d[6] == '2' && d[7] == '3';
  }

  /** A one-instance list is found exactly when its instance matches. */
  lemma FindSingle(inst: Instance, raw: string)
    ensures Find([inst], Some(raw)) == if InstanceMatches(inst, Normalize(raw)) then Some(inst) else None
  {
    var r := Find([inst], Some(raw));
    if r.Some? {
      var k :| FirstInstanceMatch([inst], k, Normalize(raw)) && [inst][k] == r.value;
    }
  }

  lemma StripLowerExample()
    ensures Strip("abc123") == "abc123"
  {
    var s := "abc123";
    assert !IsSpace(s[0]) && !IsSpace(s[5]);
    StripUnpadded(s);
  }

  lemma DowncaseLowerExample()
    ensures Downcase("abc123") == "abc123"
  {
    var s := "abc123";
    assert forall i :: 0 <= i < |s| ==> !IsUpper(s[i]);
    DowncaseLower(s);
  }

  lemma NormalizeExamples()
    ensures Normalize("I-ABC123 ") == "i-abc123"
    ensures Normalize("abc123") == "abc123"
  {
    StripExample();
    DowncaseExample();
    StripLowerExample();
    DowncaseLowerExample();
  }

  lemma FindUpperPaddedExample(inst: Instance)
    requires inst.instanceId == "i-abc123"
    ensures Find([inst], Some("I-ABC123 ")) == Some(inst)
  {
    NormalizeExamples();
    assert InstanceMatches(inst, "i-abc123");
    FindSingle(inst, "I-ABC123 ");
  }

  lemma BareIdMatchesExample(inst: Instance)
    requires inst.instanceId == "i-abc123"
    ensures InstanceMatches(inst, "abc123")
  {
    var id := inst.instanceId;
    assert '\n' !in id by {
      assert forall i :: 0 <= i < |id| ==> id[i] != '\n';
    }
    assert id == "i-" + "abc123";
    IdMatchOnOneLine(id, "abc123");
  }

  /** The lookups "I-ABC123 " and "abc123" both resolve the instance `i-abc123`. */
  lemma FindExample(inst: Instance)
    requires inst.instanceId == "i-abc123"
    ensures Find([inst], Some("I-ABC123 ")) == Some(inst)
    ensures Find([inst], Some("abc123")) == Some(inst)
  {
    FindUpperPaddedExample(inst);
    NormalizeExamples();
    BareIdMatchesExample(inst);
    FindSingle(inst, "abc123");
  }

  /** The test of `find_volume`: by id only, `vol-` stripped at line starts. */
  predicate VolumeMatches(vol: Volume, q: string) {
    vol.volumeId == q || DeleteAtLineStarts(vol.volumeId, "vol-") == q
  }

  /** `vols[k]` is the first volume in `vols` matching `q`. */
  predicate FirstVolumeMatch(vols: seq<Volume>, k: int, q: string) {
    0 <= k < |vols| && VolumeMatches(vols[k], q)
    && forall j :: 0 <= j < k ==> !VolumeMatches(vols[j], q)
  }

  /** `find_volume(volume_id)`: nil for a nil query; otherwise the first volume
      whose id matches the stripped and downcased query. */
  function FindVolume(vols: seq<Volume>, query: Option<string>): (r: Option<Volume>)
    ensures query.None? ==> r.None?
    ensures query.Some? ==>
      (r.None? <==> forall j :: 0 <= j < |vols| ==> !VolumeMatches(vols[j], Normalize(query.value)))
    ensures r.Some? ==> query.Some?
    ensures r.Some? ==> exists k :: FirstVolumeMatch(vols, k, Normalize(query.value)) && vols[k] == r.value
  {
    match query
    case None => None
    case Some(raw) =>
      var q := Normalize(raw);
      Detect(vols, vol => VolumeMatches(vol, q))
  }

  /** For a volume id on one line, a match is the query itself or the query
      with `vol-` in front. */
  lemma VolumeIdMatchOnOneLine(id: string, q: string)
    requires '\n' !in id
    ensures (id == q || DeleteAtLineStarts(id, "vol-") == q) <==> (id == q || id == "vol-" + q)
  {
    SingleLineDelete(id, "vol-");
    if StartsWith(id, "vol-") {
      assert id == "vol-" + id[4..];
    }
    if id == "vol-" + q {
      assert StartsWith(id, "vol-");
      assert id[4..] == q;
    }
  }

  // ------------------------------------------------------------- filters

  /** `list_by_status(status)`: the instances with exactly that status, in order. */
  function ListByStatus(list: seq<Instance>, status: string): (r: seq<Instance>)
    ensures forall j :: 0 <= j < |r| ==> r[j] in list && r[j].status == status
    ensures forall j :: 0 <= j < |list| && list[j].status == status ==> list[j] in r
    ensures IsSubsequence(r, list)
    ensures forall x :: multiset(r)[x] == if x.status == status then multiset(list)[x] else 0
  {
    var p := (inst: Instance) => inst.status == status;
    SelectIsSubsequence(list, p);
    SelectCount(list, p);
    Select(list, p)
  }

  /** `running`. */
  function Running(list: seq<Instance>): (r: seq<Instance>)
    ensures forall j :: 0 <= j < |r| ==> r[j] in list && r[j].status == "running"
    ensures forall j :: 0 <= j < |list| && list[j].status == "running" ==> list[j] in r
    ensures IsSubsequence(r, list)
    ensures forall x :: multiset(r)[x] == if x.status == "running" then multiset(list)[x] else 0
    ensures r == ListByStatus(list, "running")
  {
    ListByStatus(list, "running")
  }

  /** `pending`. */
  function Pending(list: seq<Instance>): (r: seq<Instance>)
    ensures forall j :: 0 <= j < |r| ==> r[j] in list && r[j].status == "pending"
    ensures forall j :: 0 <= j < |list| && list[j].status == "pending" ==> list[j] in r
    ensures IsSubsequence(r, list)
    ensures forall x :: multiset(r)[x] == if x.status == "pending" then multiset(list)[x] else 0
    ensures r == ListByStatus(list, "pending")
  {
    ListByStatus(list, "pending")
  }

  predicate IsAvailable(v: Volume) { v.status == "available" }
  predicate IsInUse(v: Volume) { v.status == "in-use" }
  predicate IsNotDeleting(v: Volume) { v.status != "deleting" }

  /** `available_volumes`. */
  function AvailableVolumes(vols: seq<Volume>): (r: seq<Volume>)
    ensures forall j :: 0 <= j < |r| ==> r[j] in vols && r[j].status == "available"
    ensures forall j :: 0 <= j < |vols| && vols[j].status == "available" ==> vols[j] in r
    ensures IsSubsequence(r, vols)
    ensures forall x :: multiset(r)[x] == if x.status == "available" then multiset(vols)[x] else 0
  {
    SelectIsSubsequence(vols, IsAvailable);
    SelectCount(vols, IsAvailable);
    Select(vols, IsAvailable)
  }

  /** `attached_volumes`. */
  function AttachedVolumes(vols: seq<Volume>): (r: seq<Volume>)
    ensures forall j :: 0 <= j < |r| ==> r[j] in vols && r[j].status == "in-use"
    ensures forall j :: 0 <= j < |vols| && vols[j].status == "in-use" ==> vols[j] in r
    ensures IsSubsequence(r, vols)
    ensures forall x :: multiset(r)[x] == if x.status == "in-use" then multiset(vols)[x] else 0
  {
    SelectIsSubsequence(vols, IsInUse);
    SelectCount(vols, IsInUse);
    Select(vols, IsInUse)
  }

  /** `nondestroyed_volumes`. */
  function NondestroyedVolumes(vols: seq<Volume>): (r: seq<Volume>)
    ensures forall j :: 0 <= j < |r| ==> r[j] in vols && r[j].status != "deleting"
    ensures forall j :: 0 <= j < |vols| && vols[j].status != "deleting" ==> vols[j] in r
    ensures IsSubsequence(r, vols)
    ensures forall x :: multiset(r)[x] == if x.status != "deleting" then multiset(vols)[x] else 0
  {
    SelectIsSubsequence(vols, IsNotDeleting);
    SelectCount(vols, IsNotDeleting);
    Select(vols, IsNotDeleting)
  }

  /** No volume is both available and attached. */
  lemma AvailableAttachedDisjoint(vols: seq<Volume>, v: Volume)
    ensures !(v in AvailableVolumes(vols) && v in AttachedVolumes(vols))
  {
  }

  /** Available and attached volumes are order-preserving subsequences of the
      non-destroyed ones, and are exactly what filtering those gives. */
  lemma FiltersWithinNondestroyed(vols: seq<Volume>)
    ensures AvailableVolumes(vols) == Select(NondestroyedVolumes(vols), IsAvailable)
    ensures AttachedVolumes(vols) == Select(NondestroyedVolumes(vols), IsInUse)
    ensures IsSubsequence(AvailableVolumes(vols), NondestroyedVolumes(vols))
    ensures IsSubsequence(AttachedVolumes(vols), NondestroyedVolumes(vols))
  {
    SelectNarrower(vols, IsAvailable, IsNotDeleting);
    SelectNarrower(vols, IsInUse, IsNotDeleting);
    SelectIsSubsequence(NondestroyedVolumes(vols), IsAvailable);
    SelectIsSubsequence(NondestroyedVolumes(vols), IsInUse);
  }
}

=== FILE: polling.dfy ===
/**
 * The readiness waits: `wait_for_hostname`, `wait_for_private_ip` and
 * `wait_for_ssh`. Their unbounded loops become functions over a finite trace
 * of what each round observes; running out of trace means "still waiting".
 * Sleeping and the per-round timeout are not modelled beyond the outcome
 * they produce.
 */
module Polling {
  import opened Common
  import opened Text
  import opened Seqs
  import opened Inventory

  // ------------------------------------------------------ id-shape guard

  /** The guard as written, `instance_id.match(/^i-/)`: since `^` anchors at
      every line start, any line of the id may begin with `i-`. */
  function GuardAsWritten(id: Option<string>): (r: bool)
    ensures id.None? ==> !r
    ensures r <==> id.Some? && exists i: nat :: i <= |id.value| && LineStartAt(id.value, i) && PrefixAt(id.value, i, "i-")
  {
    id.Some? && MatchesAtLineStart(id.value, "i-")
  }

  /** The guard as intended: the id begins with `i-`. Every id it accepts
      the guard as written accepts too. */
  function IsInstanceId(id: Option<string>): (r: bool)
    ensures r <==> id.Some? && |id.value| >= 2 && id.value[0] == 'i' && id.value[1] == '-'
    ensures r ==> GuardAsWritten(id)
  {
    if id.Some? && StartsWith(id.value, "i-") then
      assert id.value[0..] == id.value && LineStartAt(id.value, 0) && PrefixAt(id.value, 0, "i-");
      true
    else false
  }

  /** The guard as written lets through an id whose SECOND line starts with
      `i-`; such an id names no instance, so the wait would loop forever
      instead of raising ArgumentError. */
  lemma GuardAcceptsSecondLine()
    ensures GuardAsWritten(Some("x\ni-1"))
    ensures !IsInstanceId(Some("x\ni-1"))
  {
    var s := "x\ni-1";
    assert s[1..] == "\ni-1";
    assert s[1..][1..] == "i-1";
    assert StartsWith("i-1", "i-");
    assert LineMatch("i-1", "i-", true);
    assert LineMatch("\ni-1", "i-", false);
  }

  /** The intended guard only rejects more, and on one-line ids (all real
      instance ids) it agrees with the guard as written. */
  lemma GuardCorrected(id: Option<string>)
    ensures IsInstanceId(id) ==> GuardAsWritten(id)
    ensures id.Some? && '\n' !in id.value ==> (GuardAsWritten(id) <==> IsInstanceId(id))
  {
    if id.Some? && '\n' !in id.value {
      SingleLineMatch(id.value, "i-");
    }
  }

  // ------------------------------------------- hostname / private-ip waits

  /** `instance_info(instance_id)`: the first instance of a freshly fetched list with
      exactly that id (no normalisation, no cache). */
  function InstanceInfo(current: seq<Instance>, id: string): (r: Option<Instance>)
    ensures r.None? <==> forall j :: 0 <= j < |current| ==> current[j].instanceId != id
    ensures r.Some? ==> exists k :: 0 <= k < |current| && current[k] == r.value && current[k].instanceId == id
                                    && forall j :: 0 <= j < k ==> current[j].instanceId != id
  {
    Detect(current, (inst: Instance) => inst.instanceId == id)
  }

  /** Which field a wait is for. */
  datatype Field = Hostname | PrivateIp

  function FieldOf(inst: Instance, f: Field): Option<string> {
    match f
    case Hostname => inst.hostname
    case PrivateIp => inst.privateIp
  }

  /** What one round of a wait sees: the field of the instance found in that
      round's freshly fetched list, or nil. Any non-nil value counts, "" included. */
  function Reported(current: seq<Instance>, id: string, f: Field): Option<string> {
    match InstanceInfo(current, id)
    case None => None
    case Some(inst) => FieldOf(inst, f)
  }

  /** A round reports nothing when no instance has the id; otherwise it
      reports the field of the first instance that has it. */
  lemma ReportedMeaning(current: seq<Instance>, id: string, f: Field)
    ensures forall k :: 0 <= k < |current| && current[k].instanceId == id
                        && (forall j :: 0 <= j < k ==> current[j].instanceId != id) ==>
              Reported(current, id, f) == FieldOf(current[k], f)
    ensures (forall j :: 0 <= j < |current| ==> current[j].instanceId != id) ==> Reported(current, id, f).None?
    ensures Reported(current, id, f).Some? ==>
              exists k :: 0 <= k < |current| && current[k].instanceId == id
                          && FieldOf(current[k], f) == Reported(current, id, f)
                          && forall j :: 0 <= j < k ==> current[j].instanceId != id
  {
  }

  datatype Poll = Found(value: string) | Rejected(error: Error) | StillWaiting

  /** What each observed round reports, in order. */
  function Reports(rounds: seq<seq<Instance>>, id: string, f: Field): (r: seq<Option<string>>)
    ensures |r| == |rounds|
    ensures forall k :: 0 <= k < |rounds| ==> r[k] == Reported(rounds[k], id, f)
  {
    seq(|rounds|, k requires 0 <= k < |rounds| => Reported(rounds[k], id, f))
  }

  /** The loop of a wait over per-round reports: the first value reported. */
  function FirstReport(reports: seq<Option<string>>): (r: Poll)
    ensures !r.Rejected?
    ensures r.StillWaiting? <==> forall k :: 0 <= k < |reports| ==> reports[k].None?
    ensures r.Found? ==> exists k :: 0 <= k < |reports| && reports[k] == Some(r.value)
                                     && forall j :: 0 <= j < k ==> reports[j].None?
    decreases |reports|
  {
    if |reports| == 0 then StillWaiting
    else match reports[0]
      case Some(v) => Found(v)
      case None =>
        var r := FirstReport(reports[1..]);
        assert forall k :: 1 <= k < |reports| ==> reports[k] == reports[1..][k - 1];
        if r.Found? then
          var k :| 0 <= k < |reports[1..]| && reports[1..][k] == Some(r.value)
                   && forall j :: 0 <= j < k ==> reports[1..][j].None?;
          assert reports[k + 1] == Some(r.value);
          r
        else r
  }

  /** The loop of a wait over the rounds observed: the value of the first
      round that reports the field. */
  function PollUntil(rounds: seq<seq<Instance>>, id: string, f: Field): (r: Poll)
    ensures !r.Rejected?
    ensures r.StillWaiting? <==> forall k :: 0 <= k < |rounds| ==> Reported(rounds[k], id, f).None?
    ensures r.Found? ==> exists k :: 0 <= k < |rounds| && Reported(rounds[k], id, f) == Some(r.value)
                                     && forall j :: 0 <= j < k ==> Reported(rounds[j], id, f).None?
  {
    FirstReport(Reports(rounds, id, f))
  }

  /** Reports after the first `Some` make no difference. */
  lemma {:induction false} FirstReportIgnoresLater(reports: seq<Option<string>>, later: seq<Option<string>>)
    requires exists k :: 0 <= k < |reports| && reports[k].Some?
    ensures FirstReport(reports + later) == FirstReport(reports)
    decreases |reports|
  {
    assert (reports + later)[0] == reports[0];
    if reports[0].None? {
      var k :| 0 <= k < |reports| && reports[k].Some?;
      assert reports[1..][k - 1] == reports[k];
      assert (reports + later)[1..] == reports[1..] + later;
      FirstReportIgnoresLater(reports[1..], later);
    }
  }

  /** A wait: ArgumentError unless the id has the instance-id shape, then the
      first reported value. The guard is the intended one, `IsInstanceId`. */
  function WaitForField(id: Option<string>, rounds: seq<seq<Instance>>, f: Field): (r: Poll)
    ensures r.Rejected? <==> !IsInstanceId(id)
    ensures r.Rejected? ==> r.error == ArgumentError
    ensures r.StillWaiting? <==>
      IsInstanceId(id) && forall k :: 0 <= k < |rounds| ==> Reported(rounds[k], id.value, f).None?
    ensures r.Found? ==> exists k :: 0 <= k < |rounds| && Reported(rounds[k], id.value, f) == Some(r.value)
                                     && forall j :: 0 <= j < k ==> Reported(rounds[j], id.value, f).None?
  {
    if !IsInstanceId(id) then Rejected(ArgumentError)
    else PollUntil(rounds, id.value, f)
  }

  /** `wait_for_hostname(instance_id)`, with the guard as written. */
  function WaitForHostname(id: Option<string>, rounds: seq<seq<Instance>>): (r: Poll)
    ensures r.Rejected? <==> !GuardAsWritten(id)
    ensures r.Rejected? ==> r.error == ArgumentError
    ensures r.StillWaiting? <==>
      GuardAsWritten(id) && forall k :: 0 <= k < |rounds| ==> Reported(rounds[k], id.value, Hostname).None?
    ensures r.Found? ==> exists k :: 0 <= k < |rounds| && Reported(rounds[k], id.value, Hostname) == Some(r.value)
                                     && forall j :: 0 <= j < k ==> Reported(rounds[j], id.value, Hostname).None?
    ensures r.Found? ==> exists k :: 0 <= k < |rounds| && InstanceInfo(rounds[k], id.value).Some?
                                     && InstanceInfo(rounds[k], id.value).value.hostname == Some(r.value)
  {
    if !GuardAsWritten(id) then Rejected(ArgumentError)
    else PollUntil(rounds, id.value, Hostname)
  }

  /** `wait_for_private_ip(instance_id)`, with the guard as written. */
  function WaitForPrivateIp(id: Option<string>, rounds: seq<seq<Instance>>): (r: Poll)
    ensures r.Rejected? <==> !GuardAsWritten(id)
    ensures r.Rejected? ==> r.error == ArgumentError
    ensures r.StillWaiting? <==>
      GuardAsWritten(id) && forall k :: 0 <= k < |rounds| ==> Reported(rounds[k], id.value, PrivateIp).None?
    ensures r.Found? ==> exists k :: 0 <= k < |rounds| && Reported(rounds[k], id.value, PrivateIp) == Some(r.value)
                                     && forall j :: 0 <= j < k ==> Reported(rounds[j], id.value, PrivateIp).None?
    ensures r.Found? ==> exists k :: 0 <= k < |rounds| && InstanceInfo(rounds[k], id.value).Some?
                                     && InstanceInfo(rounds[k], id.value).value.privateIp == Some(r.value)
  {
    if !GuardAsWritten(id) then Rejected(ArgumentError)
    else PollUntil(rounds, id.value, PrivateIp)
  }

  /** On an id with the intended shape the two waits are the corrected wait,
      and so are they on every one-line id. */
  lemma WaitsAgreeOnOneLineIds(id: Option<string>, rounds: seq<seq<Instance>>)
    ensures IsInstanceId(id) || (id.Some? && '\n' !in id.value) ==>
              WaitForHostname(id, rounds) == WaitForField(id, rounds, Hostname)
              && WaitForPrivateIp(id, rounds) == WaitForField(id, rounds, PrivateIp)
  {
    GuardCorrected(id);
  }

  /** The consequence of the guard as written: the id `"x\ni-1"` is not
      rejected, and since no instance carries it, the wait never ends. The
      corrected wait raises ArgumentError instead. */
  lemma SecondLineIdWaitsForever(rounds: seq<seq<Instance>>)
    requires forall k, j :: 0 <= k < |rounds| && 0 <= j < |rounds[k]| ==> rounds[k][j].instanceId != "x\ni-1"
    ensures WaitForHostname(Some("x\ni-1"), rounds) == StillWaiting
    ensures WaitForPrivateIp(Some("x\ni-1"), rounds) == StillWaiting
    ensures WaitForField(Some("x\ni-1"), rounds, Hostname) == Rejected(ArgumentError)
  {
    GuardAcceptsSecondLine();
    forall k | 0 <= k < |rounds|
      ensures Reported(rounds[k], "x\ni-1", Hostname).None? && Reported(rounds[k], "x\ni-1", PrivateIp).None?
    {
      ReportedMeaning(rounds[k], "x\ni-1", Hostname);
      ReportedMeaning(rounds[k], "x\ni-1", PrivateIp);
    }
  }

  /** The reports of two stretches of rounds are the reports of each. */
  lemma ReportsAppend(rounds: seq<seq<Instance>>, later: seq<seq<Instance>>, id: string, f: Field)
    ensures Reports(rounds + later, id, f) == Reports(rounds, id, f) + Reports(later, id, f)
  {
    var all, a, b := Reports(rounds + later, id, f), Reports(rounds, id, f), Reports(later, id, f);
    forall k | 0 <= k < |all| ensures all[k] == (a + b)[k] {
      if k < |rounds| {
        assert (rounds + later)[k] == rounds[k];
      } else {
        assert (rounds + later)[k] == later[k - |rounds|];
      }
    }
  }

  /** The wait ignores the rounds after the first one that reports the field. */
  lemma WaitStopsAtFirstReport(rounds: seq<seq<Instance>>, later: seq<seq<Instance>>, id: string, f: Field)
    requires exists k :: 0 <= k < |rounds| && Reported(rounds[k], id, f).Some?
    ensures PollUntil(rounds + later, id, f) == PollUntil(rounds, id, f)
  {
    var a, b := Reports(rounds, id, f), Reports(later, id, f);
    var k :| 0 <= k < |rounds| && Reported(rounds[k], id, f).Some?;
    assert a[k].Some?;
    ReportsAppend(rounds, later, id, f);
    FirstReportIgnoresLater(a, b);
  }

  // ------------------------------------------------------- wait_for_ssh

  /** The budget of authenticated attempts. */
  const MaxSshAttempts: nat := 10

  /** What one round of `wait_for_ssh` observes.
      Transient: the TCP connect to port 22 failed with SocketError,
        Timeout::Error, ECONNREFUSED or EHOSTUNREACH (rescued).
      Connected(commandOk): the connect succeeded; `commandOk` is whether the
        authenticated `ls` would exit zero. A command that fails or times out
        (the rescued Timeout::Error also ends every `sleep 5`) is `false`.
      Fatal: any other exception, which propagates. */
  datatype Probe = Transient | Connected(commandOk: bool) | Fatal

  datatype SshOutcome = Returned(reachable: bool) | Raised(error: Error) | OutOfTrace

  /** Result of the loop: the outcome, the final attempt counter, and the index
      of the round that decided it (the trace length if none did). */
  datatype SshWait = SshWait(outcome: SshOutcome, attempts: nat, stop: nat)

  /** Rounds that let the loop continue. */
  predicate Retryable(p: Probe) {
    p == Transient || p == Connected(false)
  }

  /** The number of successful TCP connects in a trace. */
  function Connections(t: seq<Probe>): nat
    decreases |t|
  {
    if |t| == 0 then 0 else (if t[0].Connected? then 1 else 0) + Connections(t[1..])
  }

  /** The loop body from counter `attempts` on. */
  function SshLoop(attempts: nat, t: seq<Probe>): (r: SshWait)
    requires attempts <= MaxSshAttempts
    ensures attempts <= r.attempts <= MaxSshAttempts
    ensures r.stop <= |t|
    ensures r.outcome == Returned(false) ==> r.attempts == MaxSshAttempts
    ensures r.outcome == Returned(true) ==> r.attempts > attempts
    ensures r.outcome.Raised? ==> r.outcome.error == Unrescued
    decreases |t|
  {
    if |t| == 0 then SshWait(OutOfTrace, attempts, 0)
    else match t[0]
      case Transient =>
        var r := SshLoop(attempts, t[1..]);
        r.(stop := r.stop + 1)
      case Fatal => SshWait(Raised(Unrescued), attempts, 0)
      case Connected(ok) =>
        if attempts < MaxSshAttempts then
          if ok then SshWait(Returned(true), attempts + 1, 0)
          else
            var r := SshLoop(attempts + 1, t[1..]);
            r.(stop := r.stop + 1)
        else SshWait(Returned(false), attempts, 0)
  }

  /** `wait_for_ssh(hostname)`: ArgumentError for nil (an empty name passes),
      then the loop from a zero counter. */
  function WaitForSsh(hostname: Option<string>, t: seq<Probe>): (r: SshWait)
    ensures hostname.None? ==> r.outcome == Raised(ArgumentError) && r.attempts == 0
    ensures r.outcome == Raised(ArgumentError) <==> hostname.None?
    ensures hostname.Some? ==> LoopSpec(0, t, r)
    ensures hostname.Some? && r.outcome.Raised? ==> r.outcome.error == Unrescued
    ensures r.attempts <= MaxSshAttempts
    ensures r.outcome == Returned(false) ==> r.attempts == MaxSshAttempts
    ensures r.outcome == Returned(true) ==> r.attempts >= 1
  {
    if hostname.None? then SshWait(Raised(ArgumentError), 0, 0)
    else
      SshLoopSpec(0, t);
      SshLoop(0, t)
  }

  lemma ConnectionsCons(t: seq<Probe>, n: nat)
    requires n < |t|
    ensures Connections(t[..n + 1]) == (if t[0].Connected? then 1 else 0) + Connections(t[1..][..n])
  {
    assert t[..n + 1][0] == t[0];
    assert t[..n + 1][1..] == t[1..][..n];
  }

  /** The loop exactly: every round before the deciding one was retryable; the
      deciding round and the counter before it say which outcome; the counter
      grows by one per successful connect below the budget and by nothing else. */
  predicate LoopSpec(a: nat, t: seq<Probe>, r: SshWait) {
    && r.stop <= |t|
    && (forall j :: 0 <= j < r.stop ==> Retryable(t[j]))
    && (r.outcome == OutOfTrace <==> r.stop == |t|)
    && (r.outcome == Returned(true) <==>
          r.stop < |t| && t[r.stop] == Connected(true) && a + Connections(t[..r.stop]) < MaxSshAttempts)
    && (r.outcome == Returned(false) <==>
          r.stop < |t| && t[r.stop].Connected? && a + Connections(t[..r.stop]) == MaxSshAttempts)
    && (r.outcome.Raised? <==> r.stop < |t| && t[r.stop] == Fatal)
    && r.attempts == a + Connections(t[..r.stop]) + (if r.outcome == Returned(true) then 1 else 0)
  }

  /** A retryable first round shifts the description of the rest of the loop
      by one round, with the counter raised when that round connected. */
  lemma ShiftSpec(a: nat, t: seq<Probe>, r: SshWait)
    requires |t| > 0 && Retryable(t[0])
    requires LoopSpec(a + (if t[0].Connected? then 1 else 0), t[1..], r)
    ensures LoopSpec(a, t, r.(stop := r.stop + 1))
  {
    forall j | 0 < j < r.stop + 1 ensures Retryable(t[j]) {
      assert t[j] == t[1..][j - 1];
    }
    if r.stop < |t[1..]| {
      assert t[r.stop + 1] == t[1..][r.stop];
    }
    ConnectionsCons(t, r.stop);
  }

  /** `SshLoop` meets `LoopSpec` from every counter within the budget. */
  lemma {:induction false} SshLoopSpec(a: nat, t: seq<Probe>)
    requires a <= MaxSshAttempts
    ensures LoopSpec(a, t, SshLoop(a, t))
    decreases |t|
  {
    if |t| > 0 {
      assert t[..0] == [];
      match t[0]
      case Transient =>
        SshLoopSpec(a, t[1..]);
        ShiftSpec(a, t, SshLoop(a, t[1..]));
      case Fatal =>
      case Connected(ok) =>
        if a < MaxSshAttempts && !ok {
          SshLoopSpec(a + 1, t[1..]);
          ShiftSpec(a, t, SshLoop(a + 1, t[1..]));
        }
    }
  }

  /** The trace with its transient failures removed. */
  function WithoutTransients(t: seq<Probe>): seq<Probe> {
    Select(t, (p: Probe) => p != Transient)
  }

  /** Transient connect failures are rescued and leave the counter alone:
      removing them changes neither the outcome nor the final counter. */
  lemma {:induction false} TransientsIgnored(a: nat, t: seq<Probe>)
    requires a <= MaxSshAttempts
    ensures SshLoop(a, WithoutTransients(t)).outcome == SshLoop(a, t).outcome
    ensures SshLoop(a, WithoutTransients(t)).attempts == SshLoop(a, t).attempts
    decreases |t|
  {
    if |t| > 0 {
      var w := WithoutTransients(t);
      var rest := WithoutTransients(t[1..]);
      if t[0] == Transient {
        assert w == rest;
        TransientsIgnored(a, t[1..]);
      } else {
        assert w == [t[0]] + rest;
        assert w[0] == t[0] && w[1..] == rest;
        match t[0]
        case Fatal =>
        case Connected(ok) =>
          if a < MaxSshAttempts && !ok {
            TransientsIgnored(a + 1, t[1..]);
          }
      }
    }
  }

  /** `n` rounds that connect but whose command fails. */
  function FailedAttempts(n: nat): (t: seq<Probe>)
    ensures |t| == n
    ensures forall j :: 0 <= j < n ==> t[j] == Connected(false)
  {
    seq(n, j => Connected(false))
  }

  /** Once the budget's attempts have all failed, the next successful connect
      returns false, whatever its command would have done. */
  lemma {:induction false} GivesUpAfterBudget(a: nat, ok: bool)
    requires a <= MaxSshAttempts
    ensures SshLoop(a, FailedAttempts(MaxSshAttempts - a) + [Connected(ok)]).outcome == Returned(false)
    decreases MaxSshAttempts - a
  {
    var t := FailedAttempts(MaxSshAttempts - a) + [Connected(ok)];
    if a < MaxSshAttempts {
      assert t[0] == Connected(false);
      assert t[1..] == FailedAttempts(MaxSshAttempts - (a + 1)) + [Connected(ok)];
      GivesUpAfterBudget(a + 1, ok);
    } else {
      assert t == [Connected(ok)];
    }
  }
}

=== FILE: remote.dfy ===
/**
 * The pure part of `ssh`: the one-line script sent to the remote shell, the
 * trust bootstrap performed before contacting an unknown host, the log file
 * location, and what the shell does with a `&&`-joined script.
 * Running the processes is not modelled; the actions are returned instead.
 */
module Remote {
  import opened Common
  import opened Text
  import opened Config

  const Separator := " && "

  /** The script `ssh` writes to the remote shell: the commands joined by `&&`,
      so it opens with the first command and closes with the last. */
  function Script(cmds: seq<string>): (r: string)
    ensures |cmds| == 0 ==> r == ""
    ensures |cmds| > 0 ==> StartsWith(r, cmds[0]) && EndsWith(r, cmds[|cmds| - 1])
  {
    if |cmds| == 0 then ""
    else
      JoinEnds(cmds, Separator);
      Join(cmds, Separator)
  }

  /** One command is sent as it is. */
  lemma ScriptSingle(c: string)
    ensures Script([c]) == c
  {
  }

  /** Sending two batches in one script is sending their scripts joined by `&&`. */
  lemma ScriptAppend(a: seq<string>, b: seq<string>)
    requires |a| > 0 && |b| > 0
    ensures Script(a + b) == Script(a) + Separator + Script(b)
  {
    JoinAppend(a, b, Separator);
  }

  /** `config['logfile'] || "~/.sumo/ssh.log"`. */
  function LogFile(cfg: Settings): (r: string)
    ensures !Truthy(cfg, "logfile") ==> r == "~/.sumo/ssh.log"
    ensures Truthy(cfg, "logfile") && cfg["logfile"].Str? ==> r == cfg["logfile"].s
    ensures Truthy(cfg, "logfile") ==> r == Interp(cfg, "logfile")
  {
    if Truthy(cfg, "logfile") then Interp(cfg, "logfile") else "~/.sumo/ssh.log"
  }

  /** The external actions `ssh` takes, in order. */
  datatype Action =
    | KeyScan(host: string)                                       // ssh-keyscan appended to known_hosts
    | Upload(local: string, remote: string)                       // scp -r local user@host:remote
    | Shell(user: string, host: string, logfile: string, script: string)

  /** The actions of `ssh(hostname, cmds)` given the current text of the local
      known_hosts file. When the host name occurs nowhere in it, the host key
      is scanned and the optional deploy key and known_hosts file are uploaded
      first; then the script runs in one remote session. */
  function SshActions(cfg: Settings, knownHosts: string, host: string, cmds: seq<string>): (r: seq<Action>)
    ensures |r| >= 1
    ensures r[|r| - 1] == Shell(Interp(cfg, "user"), host, LogFile(cfg), Script(cmds))
    ensures Occurs(knownHosts, host) ==> |r| == 1
    ensures !Occurs(knownHosts, host) ==> r[0] == KeyScan(host)
    ensures (Upload(Interp(cfg, "deploy_key"), ".ssh/id_rsa") in r) <==>
              (!Occurs(knownHosts, host) && Truthy(cfg, "deploy_key"))
    ensures (Upload(Interp(cfg, "known_hosts"), ".ssh/known_hosts") in r) <==>
              (!Occurs(knownHosts, host) && Truthy(cfg, "known_hosts"))
    ensures !Occurs(knownHosts, host) ==>
              var d := if Truthy(cfg, "deploy_key") then 1 else 0;
              var k := if Truthy(cfg, "known_hosts") then 1 else 0;
              |r| == 2 + d + k
              && (d == 1 ==> r[1] == Upload(Interp(cfg, "deploy_key"), ".ssh/id_rsa"))
              && (k == 1 ==> r[1 + d] == Upload(Interp(cfg, "known_hosts"), ".ssh/known_hosts"))
  {
    var deployKey := Upload(Interp(cfg, "deploy_key"), ".ssh/id_rsa");
    var hostsFile := Upload(Interp(cfg, "known_hosts"), ".ssh/known_hosts");
    var session := Shell(Interp(cfg, "user"), host, LogFile(cfg), Script(cmds));
    if Occurs(knownHosts, host) then [session]
    else if Truthy(cfg, "deploy_key") && Truthy(cfg, "known_hosts") then [KeyScan(host), deployKey, hostsFile, session]
    else if Truthy(cfg, "deploy_key") then [KeyScan(host), deployKey, session]
    else if Truthy(cfg, "known_hosts") then [KeyScan(host), hostsFile, session]
    else [KeyScan(host), session]
  }

  /** How a `&&`-joined script runs: `ran` commands were started, `ok` is the
      exit status of the script. `exits[i]` is whether command `i` would
      succeed if started. */
  datatype ChainRun = ChainRun(ran: nat, ok: bool)

  function RunChain(exits: seq<bool>): (r: ChainRun)
    ensures r.ran <= |exits|
    ensures r.ok <==> forall i :: 0 <= i < |exits| ==> exits[i]
    ensures r.ok ==> r.ran == |exits|
    ensures !r.ok ==> 1 <= r.ran && !exits[r.ran - 1] && forall i :: 0 <= i < r.ran - 1 ==> exits[i]
    decreases |exits|
  {
    if |exits| == 0 then ChainRun(0, true)
    else if !exits[0] then ChainRun(1, false)
    else
      var r := RunChain(exits[1..]);
      assert forall i :: 1 <= i < |exits| ==> exits[i] == exits[1..][i - 1];
      ChainRun(r.ran + 1, r.ok)
  }

  /** The result of `ssh` for a session whose commands would exit as `exits`:
      nil on success, otherwise the "failed ... Check <log>" error. */
  function SshResult(cfg: Settings, exits: seq<bool>): (r: Result<()>)
    ensures r.Ok? <==> forall i :: 0 <= i < |exits| ==> exits[i]
    ensures r.Failed? ==> r.error == CommandFailed(LogFile(cfg))
  {
    if RunChain(exits).ok then Ok(()) else Failed(CommandFailed(LogFile(cfg)))
  }

  /** When command 2 of 3 fails, command 3 never starts. */
  lemma ChainStopsAtFailure(e1: bool, e3: bool)
    requires e1
    ensures RunChain([e1, false, e3]) == ChainRun(2, false)
  {
    assert [e1, false, e3][1..] == [false, e3];
  }
}

=== FILE: resources.dfy ===
/** `parse_resources`: the output of `cat /root/resources` on a host, split
    into lines, with every `localhost` replaced by the host's name. */
module Resources {
  import opened Text

  const Local := "localhost"

  /** One entry per line of `split("\n")`, each the line with `localhost`
      replaced by the host name (see `ReplaceAllStep` for what that means). */
  function ParseResources(raw: string, hostname: string): (r: seq<string>)
    ensures |r| == |SplitLines(raw)|
    ensures forall i :: 0 <= i < |r| ==> r[i] == ReplaceAll(SplitLines(raw)[i], Local, hostname)
    ensures '\n' !in hostname ==> forall i :: 0 <= i < |r| ==> '\n' !in r[i]
  {
    var lines := SplitLines(raw);
    var r := seq(|lines|, i requires 0 <= i < |lines| => ReplaceAll(lines[i], Local, hostname));
    assert '\n' !in hostname ==> forall i :: 0 <= i < |r| ==> '\n' !in r[i] by {
      if '\n' !in hostname {
        forall i | 0 <= i < |r| ensures '\n' !in r[i] {
          ReplaceAllKeepsOut(lines[i], Local, hostname, '\n');
        }
      }
    }
    r
  }

  /** Lines that do not mention `localhost` come through unchanged. */
  lemma OtherLinesUnchanged(raw: string, hostname: string, i: nat)
    requires i < |SplitLines(raw)|
    requires !Occurs(SplitLines(raw)[i], Local)
    ensures ParseResources(raw, hostname)[i] == SplitLines(raw)[i]
  {
    ReplaceAllAbsent(SplitLines(raw)[i], Local, hostname);
  }

  /** On a host named `localhost` the parse is just the line split. */
  lemma ParseOnLocalhost(raw: string)
    ensures ParseResources(raw, Local) == SplitLines(raw)
  {
    var lines := SplitLines(raw);
    forall i | 0 <= i < |lines| ensures ParseResources(raw, Local)[i] == lines[i] {
      ReplaceAllSelf(lines[i], Local);
    }
  }

  /** The first `localhost` of a line becomes the host name, and what precedes
      it is kept. */
  lemma LocalhostReplaced(raw: string, hostname: string, i: nat, before: string, after: string)
    requires i < |SplitLines(raw)|
    requires SplitLines(raw)[i] == before + Local + after
    requires forall k: nat :: k < |before| ==> !PrefixAt(before + Local + after, k, Local)
    ensures ParseResources(raw, hostname)[i] == before + hostname + ReplaceAll(after, Local, hostname)
  {
    ReplaceAllStep(before, Local, after, hostname);
  }

  /** A non-empty string without a newline is a single line. */
  lemma OneLine(line: string)
    requires line != "" && '\n' !in line
    ensures SplitLines(line) == [line]
  {
    assert Fields(line, '\n') == [line];
  }

  /** A string shorter than the pattern holds no occurrence of it. */
  lemma TooShort(s: string, p: string)
    requires |s| < |p|
    ensures !Occurs(s, p)
  {
  }

  lemma ExampleLine()
    ensures ReplaceAll("localhost:80", Local, "web1") == "web1:80"
  {
    assert "localhost:80" == "" + Local + ":80";
    ReplaceAllStep("", Local, ":80", "web1");
    TooShort(":80", Local);
    ReplaceAllAbsent(":80", Local, "web1");
  }

  /** A one-line resource file naming `localhost` resolves to the host. */
  lemma ParseExample()
    ensures ParseResources("localhost:80", "web1") == ["web1:80"]
  {
    var line := "localhost:80";
    assert '\n' !in line by {
      assert forall k :: 0 <= k < |line| ==> line[k] != '\n';
    }
    OneLine(line);
    ExampleLine();
  }
}

=== FILE: seqs.dfy ===
/** Ruby's `Enumerable#detect` (first match) and `#select` (order-preserving
    filter) over sequences, with the subsequence relation they produce. */
module Seqs {
  import opened Common

  /** The index of the first element satisfying `p`, or `|s|` if none does. */
  function FirstIndex<T>(s: seq<T>, p: T -> bool): (k: nat)
    ensures k <= |s|
    ensures forall j :: 0 <= j < k ==> !p(s[j])
    ensures k < |s| ==> p(s[k])
    decreases |s|
  {
    if |s| == 0 then 0
    else if p(s[0]) then 0
    else 1 + FirstIndex(s[1..], p)
  }

  /** Ruby `detect`: the first element satisfying `p`, or nil. */
  function Detect<T>(s: seq<T>, p: T -> bool): (r: Option<T>)
    ensures r.None? <==> forall j :: 0 <= j < |s| ==> !p(s[j])
    ensures r.Some? ==> exists k :: 0 <= k < |s| && s[k] == r.value && p(s[k])
                                    && forall j :: 0 <= j < k ==> !p(s[j])
  {
    var k := FirstIndex(s, p);
    if k < |s| then Some(s[k]) else None
  }

  /** Ruby `select`: the elements satisfying `p`, in their original order. */
  function Select<T(==)>(s: seq<T>, p: T -> bool): (r: seq<T>)
    ensures |r| <= |s|
    ensures forall j :: 0 <= j < |r| ==> r[j] in s && p(r[j])
    ensures forall j :: 0 <= j < |s| && p(s[j]) ==> s[j] in r
    decreases |s|
  {
    if |s| == 0 then []
    else (if p(s[0]) then [s[0]] else []) + Select(s[1..], p)
  }

  /** `a` can be obtained from `b` by deleting elements. */
  predicate IsSubsequence<T(==)>(a: seq<T>, b: seq<T>)
    decreases |b|
  {
    |a| == 0 || (|b| > 0 && ((a[0] == b[0] && IsSubsequence(a[1..], b[1..])) || IsSubsequence(a, b[1..])))
  }

  /** What `select` keeps, it keeps in order. */
  lemma {:induction false} SelectIsSubsequence<T>(s: seq<T>, p: T -> bool)
    ensures IsSubsequence(Select(s, p), s)
    decreases |s|
  {
    if |s| > 0 {
      SelectIsSubsequence(s[1..], p);
      if p(s[0]) {
        assert Select(s, p)[0] == s[0];
        assert Select(s, p)[1..] == Select(s[1..], p);
      } else {
        assert Select(s, p) == Select(s[1..], p);
      }
    }
  }

  /** `select` keeps every element satisfying `p` as often as it occurs, and
      no other element. */
  lemma {:induction false} SelectCount<T>(s: seq<T>, p: T -> bool)
    ensures forall x :: multiset(Select(s, p))[x] == if p(x) then multiset(s)[x] else 0
    decreases |s|
  {
    if |s| > 0 {
      SelectCount(s[1..], p);
      assert s == [s[0]] + s[1..];
      assert multiset(s) == multiset([s[0]]) + multiset(s[1..]);
      var head := if p(s[0]) then [s[0]] else [];
      assert multiset(Select(s, p)) == multiset(head) + multiset(Select(s[1..], p));
    }
  }

  /** `select` distributes over concatenation. */
  lemma {:induction false} SelectAppend<T>(a: seq<T>, b: seq<T>, p: T -> bool)
    ensures Select(a + b, p) == Select(a, p) + Select(b, p)
    decreases |a|
  {
    if |a| > 0 {
      assert (a + b)[1..] == a[1..] + b;
      SelectAppend(a[1..], b, p);
    } else {
      assert a + b == b;
    }
  }

  /** Filtering by a weaker test first and then by a stronger one is filtering
      by the stronger one. */
  lemma {:induction false} SelectNarrower<T>(s: seq<T>, p: T -> bool, q: T -> bool)
    requires forall j :: 0 <= j < |s| ==> p(s[j]) ==> q(s[j])
    ensures Select(Select(s, q), p) == Select(s, p)
    decreases |s|
  {
    if |s| > 0 {
      SelectNarrower(s[1..], p, q);
      var head := if q(s[0]) then [s[0]] else [];
      SelectAppend(head, Select(s[1..], q), p);
    }
  }
}

=== FILE: text.dfy ===
/**
 * The Ruby String operations the inventory and configuration helpers rely on:
 * `strip`, ASCII `downcase`, `start_with?`, `include?`, `join`, `split("\n")`,
 * `gsub` with a literal pattern, and the line-anchored regexes `/^p/` used by
 * `match` and `gsub`. In Ruby `^` anchors at the start of every LINE, not only
 * at the start of the string; the definitions below keep that.
 */
module Text {

  /** Ruby's whitespace for `strip`: space, \t, \n, \v, \f, \r. */
  predicate IsSpace(c: char) {
    c == ' ' || c == '\t' || c == '\n' || c == '\U{B}' || c == '\U{C}' || c == '\r'
  }

  predicate AllSpace(s: string) {
    forall i :: 0 <= i < |s| ==> IsSpace(s[i])
  }

  /** The length of the longest all-whitespace prefix of `s`. */
  function LeadingSpaces(s: string): (k: nat)
    ensures k <= |s|
    ensures AllSpace(s[..k])
    ensures k < |s| ==> !IsSpace(s[k])
    decreases |s|
  {
    if |s| > 0 && IsSpace(s[0]) then
      var k' := LeadingSpaces(s[1..]);
      LeadingStep(s, k');
      1 + k'
    else 0
  }

  /** One more leading space in front of a whitespace prefix of the rest. */
  lemma LeadingStep(s: string, k': nat)
    requires |s| > 0 && IsSpace(s[0]) && k' <= |s| - 1
    requires AllSpace(s[1..][..k']) && (k' < |s| - 1 ==> !IsSpace(s[1..][k']))
    ensures AllSpace(s[..k' + 1]) && (k' + 1 < |s| ==> !IsSpace(s[k' + 1]))
  {
    assert s[..k' + 1] == [s[0]] + s[1..][..k'];
  }

  /** The length of the longest all-whitespace suffix of `s`. */
  function TrailingSpaces(s: string): (k: nat)
    ensures k <= |s|
    ensures AllSpace(s[|s| - k..])
    ensures k < |s| ==> !IsSpace(s[|s| - 1 - k])
    decreases |s|
  {
    if |s| > 0 && IsSpace(s[|s| - 1]) then
      var k' := TrailingSpaces(s[..|s| - 1]);
      TrailingStep(s, k');
      1 + k'
    else 0
  }

  /** One more trailing space after a whitespace suffix of the rest. */
  lemma TrailingStep(s: string, k': nat)
    requires |s| > 0 && IsSpace(s[|s| - 1]) && k' <= |s| - 1
    requires AllSpace(s[..|s| - 1][|s| - 1 - k'..])
    requires k' < |s| - 1 ==> !IsSpace(s[..|s| - 1][|s| - 2 - k'])
    ensures AllSpace(s[|s| - 1 - k'..]) && (k' + 1 < |s| ==> !IsSpace(s[|s| - 2 - k']))
  {
    var init := s[..|s| - 1];
    var t := s[|s| - 1 - k'..];
    forall j | 0 <= j < |t| ensures IsSpace(t[j]) {
      if j < k' {
        assert t[j] == init[|s| - 1 - k'..][j];
      }
    }
  }

  /** Ruby `String#strip`. */
  function Strip(s: string): (r: string)
    ensures |r| <= |s|
    ensures |r| == 0 || (!IsSpace(r[0]) && !IsSpace(r[|r| - 1]))
    ensures exists i :: 0 <= i <= |s| - |r| && s == s[..i] + r + s[i + |r|..]
                        && AllSpace(s[..i]) && AllSpace(s[i + |r|..])
  {
    var a := LeadingSpaces(s);
    if a == |s| then
      assert s == s[..a] + "" + s[a..];
      ""
    else
      var b := TrailingSpaces(s);
      StripMiddle(s, a, b);
      s[a..|s| - b]
  }

  /** When `s` has a non-space character, its leading and trailing whitespace
      runs are separated by a non-empty middle. */
  lemma StripMiddle(s: string, a: nat, b: nat)
    requires a < |s| && !IsSpace(s[a]) && AllSpace(s[..a])
    requires b <= |s| && AllSpace(s[|s| - b..]) && (b < |s| ==> !IsSpace(s[|s| - 1 - b]))
    ensures a < |s| - b
    ensures s == s[..a] + s[a..|s| - b] + s[|s| - b..]
  {
    assert forall i :: |s| - b <= i < |s| ==> s[i] == s[|s| - b..][i - (|s| - b)];
    assert s[..a] + s[a..|s| - b] == s[..|s| - b];
  }

  /** ASCII `downcase` of one character. */
  function DowncaseChar(c: char): char {
    if 'A' <= c <= 'Z' then (c as int + 32) as char else c
  }

  predicate IsUpper(c: char) {
    'A' <= c <= 'Z'
  }

  /** Ruby `String#downcase` on ASCII letters. */
  function Downcase(s: string): (r: string)
    ensures |r| == |s|
    ensures forall i :: 0 <= i < |s| ==> r[i] == DowncaseChar(s[i])
    ensures forall i :: 0 <= i < |r| ==> !IsUpper(r[i])
  {
    seq(|s|, i requires 0 <= i < |s| => DowncaseChar(s[i]))
  }

  /** The query normalisation of `find` and `find_volume`: `strip.downcase`.
      The result is no longer than the query, has no padding and no
      upper-case letter. */
  function Normalize(q: string): (r: string)
    ensures r == Downcase(Strip(q))
    ensures |r| <= |q|
    ensures |r| == 0 || (!IsSpace(r[0]) && !IsSpace(r[|r| - 1]))
    ensures forall i :: 0 <= i < |r| ==> !IsUpper(r[i])
  {
    var t := Strip(q);
    DowncaseKeepsUnpadded(t);
    Downcase(t)
  }

  /** Lowering letters neither adds nor removes padding. */
  lemma DowncaseKeepsUnpadded(t: string)
    requires |t| == 0 || (!IsSpace(t[0]) && !IsSpace(t[|t| - 1]))
    ensures var r := Downcase(t); |r| == 0 || (!IsSpace(r[0]) && !IsSpace(r[|r| - 1]))
  {
    var r := Downcase(t);
    if |r| > 0 {
      assert r[0] == DowncaseChar(t[0]);
      assert r[|r| - 1] == DowncaseChar(t[|t| - 1]);
    }
  }

  lemma StripUnpadded(s: string)
    requires |s| == 0 || (!IsSpace(s[0]) && !IsSpace(s[|s| - 1]))
    ensures Strip(s) == s
  {
    assert LeadingSpaces(s) == 0;
    assert TrailingSpaces(s) == 0;
  }

  /** A string without upper-case letters is its own `downcase`. */
  lemma DowncaseLower(s: string)
    requires forall i :: 0 <= i < |s| ==> !IsUpper(s[i])
    ensures Downcase(s) == s
  {
  }

  lemma DowncaseIdempotent(s: string)
    ensures Downcase(Downcase(s)) == Downcase(s)
  {
  }

  /** Normalising an already normalised query changes nothing. */
  lemma NormalizeIdempotent(q: string)
    ensures Normalize(Normalize(q)) == Normalize(q)
  {
    var t := Strip(q);
    var d := Downcase(t);
    if |d| > 0 {
      assert !IsSpace(t[0]) && !IsSpace(t[|t| - 1]);
      assert d[0] == DowncaseChar(t[0]);
      assert d[|d| - 1] == DowncaseChar(t[|t| - 1]);
    }
    StripUnpadded(d);
    DowncaseIdempotent(t);
  }

  /** Ruby `s.start_with?(p)`. */
  predicate StartsWith(s: string, p: string) {
    |p| <= |s| && s[..|p|] == p
  }

  /** Ruby `s.end_with?(p)`. */
  predicate EndsWith(s: string, p: string) {
    |p| <= |s| && s[|s| - |p|..] == p
  }

  /** `p` occurs in `s` at index `i`. */
  predicate PrefixAt(s: string, i: nat, p: string) {
    i <= |s| && StartsWith(s[i..], p)
  }

  /** Ruby `s.include?(p)`. */
  predicate Occurs(s: string, p: string) {
    exists i: nat :: i <= |s| && PrefixAt(s, i, p)
  }

  /** Ruby `Array#join(sep)` on strings. */
  function Join(parts: seq<string>, sep: string): string
    decreases |parts|
  {
    if |parts| == 0 then ""
    else if |parts| == 1 then parts[0]
    else parts[0] + sep + Join(parts[1..], sep)
  }

  /** A join starts with the first part and ends with the last one. */
  lemma {:induction false} JoinEnds(parts: seq<string>, sep: string)
    requires |parts| > 0
    ensures StartsWith(Join(parts, sep), parts[0])
    ensures EndsWith(Join(parts, sep), parts[|parts| - 1])
    decreases |parts|
  {
    if |parts| > 1 {
      var rest := Join(parts[1..], sep);
      JoinEnds(parts[1..], sep);
      var r := parts[0] + sep + rest;
      assert r[..|parts[0]|] == parts[0];
      assert r[|r| - |rest|..] == rest;
    }
  }

  /** Joining two non-empty lists is joining each and gluing the halves with `sep`. */
  lemma {:induction false} JoinAppend(a: seq<string>, b: seq<string>, sep: string)
    requires |a| > 0 && |b| > 0
    ensures Join(a + b, sep) == Join(a, sep) + sep + Join(b, sep)
    decreases |a|
  {
    if |a| == 1 {
      assert (a + b)[1..] == b;
    } else {
      assert (a + b)[1..] == a[1..] + b;
      JoinAppend(a[1..], b, sep);
    }
  }

  /** The index of the first `c` in `s`. */
  function IndexOf(s: string, c: char): (i: nat)
    requires c in s
    ensures i < |s| && s[i] == c && c !in s[..i]
    decreases |s|
  {
    if s[0] == c then 0
    else
      var i := 1 + IndexOf(s[1..], c);
      assert s[..i] == [s[0]] + s[1..][..i - 1];
      i
  }

  /** All fields of `s` between occurrences of `c`, empty ones included. */
  function Fields(s: string, c: char): (r: seq<string>)
    ensures |r| >= 1
    ensures forall k :: 0 <= k < |r| ==> c !in r[k]
    decreases |s|
  {
    if c in s then
      var i := IndexOf(s, c);
      [s[..i]] + Fields(s[i + 1..], c)
    else [s]
  }

  /** Splitting on `c` and joining with `c` gives back the string. */
  lemma {:induction false} JoinFields(s: string, c: char)
    ensures Join(Fields(s, c), [c]) == s
    decreases |s|
  {
    if c in s {
      var i := IndexOf(s, c);
      var tail := s[i + 1..];
      JoinFields(tail, c);
      FieldsUnfold(s, c);
      JoinCons(s[..i], Fields(tail, c), [c]);
      assert s == s[..i] + [c] + tail;
    }
  }

  /** A string containing `c` splits at its first `c`. */
  lemma FieldsUnfold(s: string, c: char)
    requires c in s
    ensures Fields(s, c) == [s[..IndexOf(s, c)]] + Fields(s[IndexOf(s, c) + 1..], c)
  {
  }

  /** Joining a head in front of a non-empty list puts `sep` between them. */
  lemma JoinCons(head: string, rest: seq<string>, sep: string)
    requires |rest| > 0
    ensures Join([head] + rest, sep) == head + sep + Join(rest, sep)
  {
    assert ([head] + rest)[1..] == rest;
  }

  /** Joining fields free of `c` with `c` and splitting again gives back the fields. */
  lemma {:induction false} FieldsJoin(parts: seq<string>, c: char)
    requires |parts| >= 1
    requires forall k :: 0 <= k < |parts| ==> c !in parts[k]
    ensures Fields(Join(parts, [c]), c) == parts
    decreases |parts|
  {
    if |parts| > 1 {
      var s := Join(parts, [c]);
      var rest := Join(parts[1..], [c]);
      assert s == parts[0] + [c] + rest;
      FirstField(parts[0], c, rest);
      FieldsJoin(parts[1..], c);
      assert parts == [parts[0]] + parts[1..];
    }
  }

  /** A string that starts with a field free of `c`, then `c`, splits there. */
  lemma FirstField(p: string, c: char, rest: string)
    requires c !in p
    ensures Fields(p + [c] + rest, c) == [p] + Fields(rest, c)
  {
    var s := p + [c] + rest;
    assert s[|p|] == c;
    assert s[..|p|] == p;
    var i := IndexOf(s, c);
    assert i <= |p| ==> s[..i] == p[..i];
    assert i >= |p| ==> s[..i][..|p|] == p;
    assert s[..i] == p;
    assert s[i + 1..] == rest;
  }

  /** `parts` without its trailing empty strings. */
  function DropTrailingEmpty(parts: seq<string>): (r: seq<string>)
    ensures |r| <= |parts| && r == parts[..|r|]
    ensures forall k :: |r| <= k < |parts| ==> parts[k] == ""
    ensures |r| == 0 || r[|r| - 1] != ""
    decreases |parts|
  {
    if |parts| > 0 && parts[|parts| - 1] == "" then DropTrailingEmpty(parts[..|parts| - 1])
    else parts
  }

  /** Ruby `s.split("\n")`: the lines of `s`, trailing empty lines dropped. */
  function SplitLines(s: string): (r: seq<string>)
    ensures forall k :: 0 <= k < |r| ==> '\n' !in r[k]
    ensures |r| == 0 || r[|r| - 1] != ""
  {
    DropTrailingEmpty(Fields(s, '\n'))
  }

  /** Joining only empty strings with a newline gives only newlines. */
  lemma {:induction false} JoinEmpties(parts: seq<string>)
    requires forall k :: 0 <= k < |parts| ==> parts[k] == ""
    ensures forall i :: 0 <= i < |Join(parts, "\n")| ==> Join(parts, "\n")[i] == '\n'
    decreases |parts|
  {
    if |parts| > 1 {
      JoinEmpties(parts[1..]);
      assert Join(parts, "\n") == "\n" + Join(parts[1..], "\n");
    }
  }

  /** `split("\n")` loses only trailing newlines: joining the lines again
      gives `s` up to a run of newlines at its end. */
  lemma SplitLinesRoundTrip(s: string)
    ensures StartsWith(s, Join(SplitLines(s), "\n"))
    ensures forall i :: |Join(SplitLines(s), "\n")| <= i < |s| ==> s[i] == '\n'
  {
    var f := Fields(s, '\n');
    var r := SplitLines(s);
    var e := f[|r|..];
    assert s == Join(f, "\n") by { JoinFields(s, '\n'); }
    assert f == r + e;
    JoinTrailingEmpties(r, e);
  }

  /** Appending empty parts to a join appends only newlines. */
  lemma JoinTrailingEmpties(r: seq<string>, e: seq<string>)
    requires forall k :: 0 <= k < |e| ==> e[k] == ""
    ensures StartsWith(Join(r + e, "\n"), Join(r, "\n"))
    ensures forall i :: |Join(r, "\n")| <= i < |Join(r + e, "\n")| ==> Join(r + e, "\n")[i] == '\n'
  {
    if |e| == 0 {
      assert r + e == r;
    } else {
      JoinEmpties(e);
      if |r| == 0 {
        assert r + e == e;
      } else {
        JoinAppend(r, e, "\n");
        TailOfNewlines(Join(r, "\n"), Join(e, "\n"));
      }
    }
  }

  lemma TailOfNewlines(body: string, tail: string)
    requires forall i :: 0 <= i < |tail| ==> tail[i] == '\n'
    ensures StartsWith(body + "\n" + tail, body)
    ensures forall i :: |body| <= i < |body + "\n" + tail| ==> (body + "\n" + tail)[i] == '\n'
  {
    var s := body + "\n" + tail;
    assert s[..|body|] == body;
    forall i | |body| <= i < |s| ensures s[i] == '\n' {
      if i > |body| {
        assert s[i] == tail[i - |body| - 1];
      }
    }
  }

  /** Ruby `s.gsub(pat, rep)` for a literal, non-empty `pat` (leftmost,
      non-overlapping). Backslash escapes in `rep` are not interpreted. */
  function ReplaceAll(s: string, pat: string, rep: string): (r: string)
    requires |pat| > 0
    ensures |s| > 0 && !StartsWith(s, pat) ==> |r| > 0 && r[0] == s[0]
    ensures StartsWith(s, pat) ==> StartsWith(r, rep)
    decreases |s|
  {
    if |s| == 0 then ""
    else if StartsWith(s, pat) then
      rep + ReplaceAll(s[|pat|..], pat, rep)
    else [s[0]] + ReplaceAll(s[1..], pat, rep)
  }

  /** The leftmost occurrence of the pattern is replaced: when no occurrence
      starts inside `a`, `a` is kept, the occurrence right after it becomes
      `rep`, and the rest is processed in turn. */
  lemma {:induction false} ReplaceAllStep(a: string, pat: string, b: string, rep: string)
    requires |pat| > 0
    requires forall i: nat :: i < |a| ==> !PrefixAt(a + pat + b, i, pat)
    ensures ReplaceAll(a + pat + b, pat, rep) == a + rep + ReplaceAll(b, pat, rep)
    decreases |a|
  {
    if |a| == 0 {
      assert a + pat + b == pat + b;
      assert a + rep == rep;
      ReplaceAllHere(pat, b, rep);
    } else {
      ReplaceAllSkip(a, pat, b, rep);
      NoEarlierMatch(a, pat, b);
      ReplaceAllStep(a[1..], pat, b, rep);
      ConsAppend(a, rep, ReplaceAll(b, pat, rep));
    }
  }

  lemma ConsAppend(a: string, v: string, w: string)
    requires |a| > 0
    ensures [a[0]] + (a[1..] + v + w) == a + v + w
  {
    assert a == [a[0]] + a[1..];
  }

  /** A first character that starts no occurrence is kept. */
  lemma ReplaceAllSkip(a: string, pat: string, b: string, rep: string)
    requires |pat| > 0 && |a| > 0
    requires !PrefixAt(a + pat + b, 0, pat)
    ensures ReplaceAll(a + pat + b, pat, rep) == [a[0]] + ReplaceAll(a[1..] + pat + b, pat, rep)
  {
    var s := a + pat + b;
    assert s[0..] == s;
    assert s[1..] == a[1..] + pat + b;
  }

  /** A string that starts with the pattern has that occurrence replaced. */
  lemma ReplaceAllHere(pat: string, b: string, rep: string)
    requires |pat| > 0
    ensures ReplaceAll(pat + b, pat, rep) == rep + ReplaceAll(b, pat, rep)
  {
    var s := pat + b;
    assert s[..|pat|] == pat;
    assert s[|pat|..] == b;
  }

  /** Dropping the first character keeps "no occurrence starts inside `a`". */
  lemma NoEarlierMatch(a: string, pat: string, b: string)
    requires |a| > 0
    requires forall i: nat :: i < |a| ==> !PrefixAt(a + pat + b, i, pat)
    ensures forall i: nat :: i < |a[1..]| ==> !PrefixAt(a[1..] + pat + b, i, pat)
  {
    var s := a + pat + b;
    assert s[1..] == a[1..] + pat + b;
    forall i: nat | i < |a[1..]| ensures !PrefixAt(a[1..] + pat + b, i, pat) {
      assert s[1..][i..] == s[i + 1..];
      assert !PrefixAt(s, i + 1, pat);
    }
  }

  /** Replacing a pattern by itself is the identity. */
  lemma {:induction false} ReplaceAllSelf(s: string, pat: string)
    requires |pat| > 0
    ensures ReplaceAll(s, pat, pat) == s
    decreases |s|
  {
    if |s| > 0 {
      if StartsWith(s, pat) {
        ReplaceAllSelf(s[|pat|..], pat);
        assert s == s[..|pat|] + s[|pat|..];
      } else {
        ReplaceAllSelf(s[1..], pat);
        assert s == [s[0]] + s[1..];
      }
    }
  }

  /** A string without the pattern is left alone. */
  lemma {:induction false} ReplaceAllAbsent(s: string, pat: string, rep: string)
    requires |pat| > 0
    requires !Occurs(s, pat)
    ensures ReplaceAll(s, pat, rep) == s
    decreases |s|
  {
    if |s| > 0 {
      assert !PrefixAt(s, 0, pat);
      assert s[0..] == s;
      forall i: nat | PrefixAt(s[1..], i, pat)
        ensures false
      {
        assert s[1..][i..] == s[i + 1..];
        assert PrefixAt(s, i + 1, pat);
      }
      ReplaceAllAbsent(s[1..], pat, rep);
      assert s == [s[0]] + s[1..];
    }
  }

  /** Replacement brings in no character that neither the string nor the
      replacement contains. */
  lemma {:induction false} ReplaceAllKeepsOut(s: string, pat: string, rep: string, c: char)
    requires |pat| > 0
    requires c !in s && c !in rep
    ensures c !in ReplaceAll(s, pat, rep)
    decreases |s|
  {
    if |s| > 0 {
      if StartsWith(s, pat) {
        assert forall i :: |pat| <= i < |s| ==> s[|pat|..][i - |pat|] == s[i];
        ReplaceAllKeepsOut(s[|pat|..], pat, rep, c);
      } else {
        assert forall i :: 1 <= i < |s| ==> s[1..][i - 1] == s[i];
        ReplaceAllKeepsOut(s[1..], pat, rep, c);
      }
    }
  }

  /** Ruby `s.match(/^p/)` for a literal `p`: `p` starts some line of `s`.
      `atStart` says whether the current position begins a line. */
  predicate LineMatch(s: string, p: string, atStart: bool)
    decreases |s|
  {
    (atStart && StartsWith(s, p)) || (|s| > 0 && LineMatch(s[1..], p, s[0] == '\n'))
  }

  /** Index `i` of `s` begins a line. */
  predicate LineStartAt(s: string, i: nat) {
    i == 0 || (i <= |s| && s[i - 1] == '\n')
  }

  /** `LineMatch` holds exactly when `p` occurs at the current position (if that
      begins a line) or right after some newline of `s`. */
  lemma {:induction false} LineMatchSpec(s: string, p: string, atStart: bool)
    ensures LineMatch(s, p, atStart) <==>
              (atStart && StartsWith(s, p)) || exists i: nat :: 1 <= i <= |s| && s[i - 1] == '\n' && PrefixAt(s, i, p)
    decreases |s|
  {
    if |s| > 0 {
      var t := s[1..];
      LineMatchSpec(t, p, s[0] == '\n');
      if LineMatch(t, p, s[0] == '\n') {
        if s[0] == '\n' && StartsWith(t, p) {
          assert s[1..] == t;
          assert PrefixAt(s, 1, p);
        } else {
          var j: nat :| 1 <= j <= |t| && t[j - 1] == '\n' && PrefixAt(t, j, p);
          assert t[j..] == s[j + 1..];
          assert PrefixAt(s, j + 1, p);
        }
      }
      if exists i: nat :: 1 <= i <= |s| && s[i - 1] == '\n' && PrefixAt(s, i, p) {
        var i: nat :| 1 <= i <= |s| && s[i - 1] == '\n' && PrefixAt(s, i, p);
        if i == 1 {
          assert s[1..] == t;
        } else {
          assert t[i - 1..] == s[i..];
          assert t[i - 2] == s[i - 1];
          assert PrefixAt(t, i - 1, p);
        }
      }
    }
  }

  /** From the start of `s`, `LineMatch` finds `p` at some line start. */
  lemma LineMatchFromStart(s: string, p: string)
    ensures LineMatch(s, p, true) <==> exists i: nat :: i <= |s| && LineStartAt(s, i) && PrefixAt(s, i, p)
  {
    LineMatchSpec(s, p, true);
    assert s[0..] == s;
    if LineMatch(s, p, true) {
      if StartsWith(s, p) {
        assert LineStartAt(s, 0) && PrefixAt(s, 0, p);
      } else {
        var i: nat :| 1 <= i <= |s| && s[i - 1] == '\n' && PrefixAt(s, i, p);
        assert LineStartAt(s, i);
      }
    }
    if exists i: nat :: i <= |s| && LineStartAt(s, i) && PrefixAt(s, i, p) {
      var i: nat :| i <= |s| && LineStartAt(s, i) && PrefixAt(s, i, p);
      if i > 0 {
        assert 1 <= i <= |s| && s[i - 1] == '\n' && PrefixAt(s, i, p);
      }
    }
  }

  /** Ruby `s.match(/^p/)`: `p` begins some line of `s`. */
  function MatchesAtLineStart(s: string, p: string): (r: bool)
    ensures r <==> exists i: nat :: i <= |s| && LineStartAt(s, i) && PrefixAt(s, i, p)
  {
    LineMatchFromStart(s, p);
    LineMatch(s, p, true)
  }

  /** Ruby `s.gsub(/^p/, '')` for a literal, non-empty `p`: delete `p` wherever
      it begins a line. */
  function DeleteFrom(s: string, p: string, atStart: bool): (r: string)
    requires |p| > 0
    ensures |r| <= |s|
    ensures !LineMatch(s, p, atStart) ==> r == s
    ensures atStart && StartsWith(s, p) ==> |r| <= |s| - |p|
    decreases |s|
  {
    if |s| == 0 then ""
    else if atStart && StartsWith(s, p) then DeleteFrom(s[|p|..], p, p[|p| - 1] == '\n')
    else
      assert s == [s[0]] + s[1..];
      [s[0]] + DeleteFrom(s[1..], p, s[0] == '\n')
  }

  /** Ruby `s.gsub(/^p/, '')`: only ever shorter, unchanged when no line of
      `s` begins with `p`, and at least `p` shorter when `s` itself does. */
  function DeleteAtLineStarts(s: string, p: string): (r: string)
    requires |p| > 0
    ensures |r| <= |s|
    ensures !MatchesAtLineStart(s, p) ==> r == s
    ensures StartsWith(s, p) ==> |r| <= |s| - |p|
  {
    DeleteFrom(s, p, true)
  }

  lemma {:induction false} NoLineMatchInsideLine(s: string, p: string)
    requires '\n' !in s
    ensures !LineMatch(s, p, false)
    decreases |s|
  {
    if |s| > 0 {
      NoLineMatchInsideLine(s[1..], p);
    }
  }

  /** On a single line, the line-anchored match is a plain prefix test. */
  lemma SingleLineMatch(s: string, p: string)
    requires '\n' !in s
    ensures MatchesAtLineStart(s, p) <==> StartsWith(s, p)
  {
    if |s| > 0 {
      NoLineMatchInsideLine(s[1..], p);
    }
  }

  lemma {:induction false} NoDeleteInsideLine(s: string, p: string)
    requires |p| > 0
    requires '\n' !in s
    ensures DeleteFrom(s, p, false) == s
    decreases |s|
  {
    if |s| > 0 {
      NoDeleteInsideLine(s[1..], p);
      assert s == [s[0]] + s[1..];
    }
  }

  /** On a single line, deleting a line-anchored `p` removes at most one
      leading copy of it. */
  lemma SingleLineDelete(s: string, p: string)
    requires |p| > 0 && '\n' !in p
    requires '\n' !in s
    ensures StartsWith(s, p) ==> DeleteAtLineStarts(s, p) == s[|p|..]
    ensures !StartsWith(s, p) ==> DeleteAtLineStarts(s, p) == s
  {
    if |s| > 0 {
      if StartsWith(s, p) {
        assert p[|p| - 1] == s[|p| - 1];
        NoDeleteInsideLine(s[|p|..], p);
      } else {
        NoDeleteInsideLine(s[1..], p);
        assert s == [s[0]] + s[1..];
      }
    }
  }

  /** A prefix without newlines starts `a + "\n" + b` exactly when it starts
      `a`, for `a` without newlines. */
  lemma StartsBeforeNewline(a: string, b: string, p: string)
    requires '\n' !in p
    ensures StartsWith(a + "\n" + b, p) <==> StartsWith(a, p)
  {
    var s := a + "\n" + b;
    assert s[|a|] == '\n';
    assert |a| < |p| <= |s| ==> s[..|p|][|a|] == '\n';
    assert StartsWith(s, p) ==> |p| <= |a| && a[..|p|] == s[..|p|];
    assert StartsWith(a, p) ==> s[..|p|] == a[..|p|];
  }

  /** Deleting from a line ends at the newline: a line-anchored delete on
      `a + "\n" + b` handles `a` on its own and starts `b` as a new line. */
  lemma {:induction false} DeleteAcrossNewline(a: string, b: string, p: string, atStart: bool)
    requires |p| > 0 && '\n' !in p
    requires '\n' !in a
    ensures DeleteFrom(a + "\n" + b, p, atStart) == DeleteFrom(a, p, atStart) + "\n" + DeleteFrom(b, p, true)
    decreases |a|
  {
    var s := a + "\n" + b;
    StartsBeforeNewline(a, b, p);
    if |a| == 0 {
      assert s == "\n" + b && s[1..] == b;
    } else if atStart && StartsWith(a, p) {
      assert p[|p| - 1] in p;
      assert s[|p|..] == a[|p|..] + "\n" + b;
      DeleteAcrossNewline(a[|p|..], b, p, false);
    } else {
      assert a[0] in a;
      assert s[1..] == a[1..] + "\n" + b;
      DeleteAcrossNewline(a[1..], b, p, false);
      ConsNewline(a[0], DeleteFrom(a[1..], p, false), DeleteFrom(b, p, true));
    }
  }

  lemma ConsNewline(c: char, x: string, y: string)
    ensures [c] + (x + "\n" + y) == ([c] + x) + "\n" + y
  {
  }

  /** `s.gsub(/^p/, '')` works line by line: the line before a newline and
      the text after it are each handled as text of their own. */
  lemma DeletePerLine(a: string, b: string, p: string)
    requires |p| > 0 && '\n' !in p
    requires '\n' !in a
    ensures DeleteAtLineStarts(a + "\n" + b, p) == DeleteAtLineStarts(a, p) + "\n" + DeleteAtLineStarts(b, p)
  {
    DeleteAcrossNewline(a, b, p, true);
  }

  /** Splitting joined lines gives them back: `split("\n")` after joining
      lines that hold no newline, the last of them non-empty. */
  lemma SplitLinesOfJoin(lines: seq<string>)
    requires forall k :: 0 <= k < |lines| ==> '\n' !in lines[k]
    requires |lines| == 0 || lines[|lines| - 1] != ""
    ensures SplitLines(Join(lines, "\n")) == lines
  {
    if |lines| == 0 {
      assert Fields("", '\n') == [""];
    } else {
      FieldsJoin(lines, '\n');
    }
  }
}
